=== FILE: README.md ===
# HarmonyTool core in Dafny

HarmonyTool is a call-centre portal. Administrators curate pages, contacts,
FAQ entries and useful links. Teleconseillers (call agents) consult them,
file call logs and train on a timed scenario card game that awards points.
This project models the parts of the portal that carry logic and proves
what they promise:

- **Schema** (`schema.dfy`): the records of the shared Drizzle schema.
  This covers users, scenarios, user progress, pages, contacts, FAQ
  entries, links and call logs. It also covers the text enums (role,
  difficulty) and the column defaults.
- **Storage** (`storage.dfy`): the database as an immutable value, and
  the storage calls as pure state transitions that return a result (or
  the error the call throws) together with the new database. The main
  ones are the scenario answer evaluator (`submitScenarioAnswer`) and the
  progress get-or-create (`getUserProgress`).
- **Ledger** (`ledger.dfy`): whole-database invariants that every storage
  call keeps:
  - keys and unique columns;
  - one progress row per user;
  - a progress total equal to the points of the completed scenarios;
  - a user's `points` counter equal to their progress total.
- **Routes** (`routes.dfy`): the `requireAuth`/`requireAdmin` guards, the
  table of registered routes with their guards, and the handlers of the
  call-log, scenario, answer and progress endpoints.
- **ScenarioGame** (`scenario_game.dfy`): the client's scenario session.
  Its state is `(currentScenario, timeLeft, isPlaying)`. Its events are
  start, a one-second tick and an answer click. It emits effects: an
  answer submission or the timeout notice.
- **Flow** (`flow.dfy`): the end-to-end paths. A clicked choice becomes an
  answer request, which the server evaluates. A dialog submission becomes
  an admin-only route.
- **Contacts**, **Faq**, **Links** and **Forms**: the logic of the admin
  and teleconseiller pages. This covers:
  - the case-insensitive search filters;
  - the FAQ category tabs;
  - the contacts CSV export;
  - the create/update choice of the edit dialogs, the FAQ form reset and
    the link title rule.
- **Text** and **Seqs**: generic helpers. Text holds `toLowerCase`,
  `includes`, `join` and `split`. Seqs holds order-preserving filtering
  and first-occurrence de-duplication (`Array.from(new Set(...))`).

The `user_progress.user_id` column is not unique, so progress is a list
of rows rather than a map. A lookup returns the first row of the user,
as `const [progress] = await db.select()...` does. An update credits
every row of that user, as the SQL `UPDATE ... WHERE user_id = ...` does.
"One row per user" is then an invariant, proved to be kept by every call.

## Model

| member | source | states |
|---|---|---|
| Schema.ParseRole | shared/schema.ts:9 | a role column value parses exactly when it is "admin" or "teleconseiller", and the parsed role prints back as the same text |
| Schema.ParseDifficulty | shared/schema.ts:60 | a difficulty parses exactly when it is "easy", "medium" or "hard", and prints back as the same text |
| Schema.NewUser | shared/schema.ts:5-12 | a user built from the insert keeps username, password and role, and starts at 0 points and level 1 |
| Schema.NewScenario | shared/schema.ts:52-61 | an inserted scenario gets 10 points when none are given, the given points otherwise, and keeps its choices and correct index |
| Schema.DefaultProgress | shared/schema.ts:83-93 | the default progress row has total 0, empty completed lists and badges, and level 1 |
| Schema.ParseCallLog | shared/schema.ts:36-43 | a call-log body parses exactly when it has `userId`, `duration` and `outcome`, and the parsed insert carries the body's columns back |
| Schema.ParseBodyOf | shared/schema.ts:124 | parsing the body of any call-log insert yields that insert |
| Schema.ParseCallLogFor | client/src/pages/teleconseiller/dashboard.tsx:36-37 | with `userId` omitted from the schema, a body parses exactly when it has `duration` and `outcome`, and the insert belongs to the given user |
| Storage.FindScenario | server/storage.ts:160-163 | the lookup returns a scenario with the requested id when one exists, and nothing exactly when none does |
| Storage.FindScenarioUnique | server/storage.ts:160-163 | with distinct scenario ids, looking up a scenario's id returns that very scenario |
| Storage.GetScenarios | server/storage.ts:155-157 | the listing holds exactly the stored scenarios |
| Storage.SubmitScenarioAnswer | server/storage.ts:159-209 | an unknown id fails with "Scenario not found" and writes nothing; otherwise the verdict is correct exactly when the answer is the integer `correctAnswer`, points are the scenario's or 0, a wrong answer writes nothing, scenarios, pages and call logs are never written, and no id sequence moves |
| Storage.CorrectAnswerEffect | server/storage.ts:172-205 | a correct answer adds the scenario's points to that user's counter only; it extends the user's progress row (adding the points, appending the id, keeping quizzes, badges and level) or creates one with the defaults and this answer; no other user's progress changes |
| Storage.RepeatedCorrectAnswerCountsTwice | server/storage.ts:187-195 | answering the same scenario correctly twice adds its points twice and lists its id twice |
| Storage.GetUserProgress | server/storage.ts:211-234 | an existing row is returned with no write; otherwise the default row is created, appended and returned; either way the user's lookup then finds the returned row |
| Storage.GetUserProgressIdempotent | server/storage.ts:211-234 | a second call returns the same row and creates nothing |
| Storage.CreateUser | server/storage.ts:46-49 | the insert fails with a unique violation exactly when the username (or the serial id) is taken; otherwise the new user has the insert's fields, 0 points and level 1, and is the only change to the users |
| Storage.CreatePage | server/storage.ts:60-63 | the page gets the id the body supplies, or else the next sequence value (and only then does the sequence advance, even on failure); the insert fails with a unique violation exactly when that id or the slug is taken, and otherwise appends the page with the body's title, content and slug |
| Storage.CreateCallLog | server/storage.ts:118-121 | the log gets the id the body supplies, or else the next sequence value (which then advances); the insert fails with a unique violation exactly when that id is taken, and otherwise appends the log with the given user, duration, outcome and notes |
| Storage.ClientIdBlocksSequence | shared/schema.ts:124 | a body that claims the id the sequence hands out next is stored without advancing the sequence, and the next insert relying on the sequence then fails on that key |
| Storage.GetCallLogsByUser | server/storage.ts:123-128 | the listing holds exactly the logs of the given user, in table order |
| Ledger.InitialConsistent | shared/schema.ts:83-93 | an empty database with a scenario catalogue of distinct ids satisfies every invariant |
| Ledger.SubmitKeepsBalanced | server/storage.ts:169-205 | after an answer, every progress total still equals the points of its completed scenarios |
| Ledger.SubmitKeepsValid | server/storage.ts:182-205 | an answer keeps keys, unique columns and one progress row per user |
| Ledger.SubmitKeepsCountersAgree | server/storage.ts:172-205 | for an existing user, an answer keeps each user's `points` equal to their progress total |
| Ledger.SubmitKeepsConsistent | server/storage.ts:159-209 | for an existing user, an answer keeps all database invariants |
| Ledger.GetUserProgressKeepsConsistent | server/storage.ts:211-234 | the get-or-create keeps all invariants, including one row per user although the column is not unique |
| Ledger.CreateUserFailsOnlyOnTakenName | shared/schema.ts:7 | on a valid database, creating a user fails exactly when the username is taken |
| Ledger.CreateUserKeepsConsistent | server/storage.ts:46-49 | creating a user keeps all invariants |
| Ledger.CreatePageKeepsConsistent | shared/schema.ts:14-19 | creating a page keeps all invariants, slugs stay unique |
| Ledger.CreateCallLogKeepsConsistent | server/storage.ts:118-121 | filing a call log keeps all invariants |
| Routes.RequireAuth | server/routes.ts:14-19 | the guard passes exactly the signed-in requests and rejects the others with 401 "Unauthorized" |
| Routes.RequireAdmin | server/routes.ts:21-26 | the guard passes exactly signed-in admins and rejects everyone else, signed in or not, with 403 "Forbidden" |
| Routes.AdminGuardStricter | server/routes.ts:14-26 | whoever passes the admin guard passes the session guard; without a session the statuses are 401 and 403 |
| Routes.RouteGuardPolicy | server/routes.ts:32-150 | a route is admin-guarded exactly when it creates, updates or deletes pages, contacts, FAQ or links |
| Routes.RouteTableUnambiguous | server/routes.ts:32-150 | no verb and path pattern is registered twice |
| Routes.TeleconseillerReach | server/routes.ts:32-150 | a teleconseiller passes exactly the routes behind `requireAuth` |
| Routes.CoreRoutesNeedSession | server/routes.ts:120-150 | the call-log, scenario, answer and progress routes are registered behind `requireAuth` |
| Routes.FileCallLog | server/routes.ts:125-130 | a parsed call log is inserted under the session user's id; the reply is the stored log, or the store's error thrown, and the database is the insert's |
| Routes.Handle | server/routes.ts:120-150 | listing call logs returns exactly the session user's logs and listing scenarios returns the catalogue, neither writing; a call-log body is rejected without a write exactly when the full insert schema's parse fails, and is otherwise inserted under the session user; a non-numeric scenario id throws without a write, a numeric one is evaluated for the session user; progress is the user's row |
| Routes.PostCallLogIntended | server/routes.ts:125-130 | with `userId` left out of the parse, a call-log body is rejected exactly when `duration` or `outcome` is missing, and otherwise inserted under the session user |
| Routes.IntendedAgreesWhenUserGiven | server/routes.ts:125-130 | on every body that carries a `userId`, the corrected route replies and writes exactly as the route as written |
| Routes.IntendedKeepsConsistent | server/routes.ts:125-130 | the corrected call-log route keeps all database invariants |
| Routes.Serve | server/routes.ts:14-19 | a request is denied with 401 exactly when there is no session, and then the handler does not run; with a session it is the handler's reply |
| Routes.ServeKeepsConsistent | server/routes.ts:120-150 | serving any core request for a session of an existing user keeps all database invariants |
| ScenarioGame.Initial | client/src/components/games/scenario-card-game.tsx:12-14 | the session starts with no scenario, not playing, 60 seconds left |
| ScenarioGame.StartNewGame | client/src/components/games/scenario-card-game.tsx:50-56 | with scenarios loaded, a round starts on one of them with 60 seconds; with none (or still loading) nothing changes |
| ScenarioGame.InitialInv | client/src/components/games/scenario-card-game.tsx:12-14 | the mounted session satisfies the session invariant |
| ScenarioGame.TimerStep | client/src/components/games/scenario-card-game.tsx:34-48 | while playing with time left a tick takes exactly one second off; at 0 the round stops with the timeout notice and nothing else changes; outside a round with time left the tick does nothing; the timer never submits an answer |
| ScenarioGame.HandleAnswer | client/src/components/games/scenario-card-game.tsx:59-67 | without a scenario nothing happens; otherwise the current scenario's id and the choice are submitted and the round ends |
| ScenarioGame.StepKeepsInv | client/src/components/games/scenario-card-game.tsx:34-67 | every enabled event keeps `timeLeft` within 0..60 and a scenario present while playing |
| ScenarioGame.SubmittedIndexInRange | client/src/components/games/scenario-card-game.tsx:92-97 | a submitted answer is for the current scenario and is an index of its choices |
| ScenarioGame.SingleTerminalAction | client/src/components/games/scenario-card-game.tsx:59-67 | without a new start, a run submits at most one answer, none once the round is over, and the round is over after it |
| ScenarioGame.CountdownEnds | client/src/components/games/scenario-card-game.tsx:34-48 | left alone, a round counts down to 0 and ends with the timeout notice and no submission |
| Flow.RequestOf | server/routes.ts:139-143 | a submission becomes an answer request for the same scenario id and choice |
| Flow.ChosenAnswerVerdict | server/storage.ts:169-170 | clicking a choice on a stored scenario gets "correct" exactly when it is the correct index, with the scenario's points or 0 |
| Flow.SampleAnswers | server/storage.ts:159-209 | on a one-scenario catalogue: the right index wins 10 points and records the scenario, a wrong one writes nothing, an unknown id fails |
| Flow.MutationRoute | client/src/pages/admin/contacts.tsx:33-54 | a create is a POST to the collection and an update a PUT to the item |
| Flow.DialogSubmitNeedsAdmin | server/routes.ts:53-117 | every contact, FAQ or link dialog submission, create or update, hits a registered admin-only route |
| Forms.OnSubmit | client/src/pages/admin/contacts.tsx:95-101 | the dialog updates the edited row's id when editing and creates otherwise, sending the form data unchanged (the create branch cannot be reached from the pages as written, see "Left out") |
| Flow.LinkSubmitNeedsTitle | client/src/pages/admin/links.tsx:94-99 | the link dialog sends nothing while the title is empty; what it sends carries the form and lands on an admin-guarded route |
| Flow.LinkEditUnchanged | client/src/pages/admin/links.tsx:82-99 | submitting a stored link's loaded values unchanged sends nothing when it has no description (the nullable column loads `null`, which the form rule rejects), and otherwise, with a title and a valid URL, updates that link with its own values |
| Flow.FaqEditUnchangedSendsEntry | client/src/pages/admin/faq.tsx:76-93 | submitting an edited entry's form unchanged updates that entry with its own question, answer and category through the admin-guarded PUT; the blank form would be an admin-guarded POST |
| Flow.DashboardCallLogRejected | server/routes.ts:125-130 | the body the dashboard's call form posts is always rejected as an invalid body, and nothing is stored |
| Flow.DashboardCallLogFiled | client/src/pages/teleconseiller/dashboard.tsx:25-43 | with the corrected route, that body is stored under the session user with the form's duration, outcome and notes and the next serial id |
| Text.LowerChar | client/src/pages/admin/contacts.tsx:90 | a lowered character is never a capital: capitals move 32 code points up, every other character is kept |
| Text.LowerIdempotent | client/src/pages/admin/contacts.tsx:90 | lowering twice is lowering once, so the lowered search and the lowered fields compare consistently |
| Text.Includes | client/src/pages/admin/contacts.tsx:90-92 | `includes` holds exactly when the needle occurs at some position of the text |
| Text.SplitJoin | client/src/pages/admin/contacts.tsx:114-117 | joining parts free of the separator and splitting again gives the parts back |
| Seqs.Filter | client/src/pages/admin/contacts.tsx:89 | filtering keeps exactly the elements satisfying the test, once per satisfying position (repeats included), as a subsequence in input order |
| Seqs.Dedup | client/src/pages/teleconseiller/faq.tsx:21-23 | the de-duplicated list has no repeats, the same elements, and first-occurrence order |
| Contacts.Filtered | client/src/pages/admin/contacts.tsx:89-93 | a contact is kept exactly when the lowered search occurs in its lowered name or present email, or the raw search in its present phone; the result keeps list order |
| Contacts.EmptySearchKeepsAll | client/src/pages/teleconseiller/contacts.tsx:22-26 | an empty search keeps every contact |
| Contacts.AbsentFieldsNeverMatch | client/src/pages/teleconseiller/contacts.tsx:24-25 | a contact without email and phone matches only on its name |
| Contacts.PhoneMatchIsCaseSensitive | client/src/pages/admin/contacts.tsx:92 | the phone is searched without lowering: "ab" misses phone "AB", "AB" finds it |
| Contacts.ExportContacts | client/src/pages/admin/contacts.tsx:103-117 | no export while the list is absent; for any list the first line is "Nom,Téléphone,Email,Adresse" and at least one line per contact follows; when no cell holds a comma or line break, the text splits into exactly the header line and one line per contact of the full list, each splitting back into its cells with missing fields as "" |
| Contacts.CsvRoundTrip | client/src/pages/admin/contacts.tsx:106-117 | with plain cells, splitting the export on "\n" and then "," recovers the header and every row |
| Contacts.CommaInCellSplitsIt | client/src/pages/admin/contacts.tsx:114-117 | without quoting, an address "a,b" makes its line split into five cells |
| Faq.Filtered | client/src/pages/admin/faq.tsx:96-99 | an entry is kept exactly when the lowered search occurs in its lowered question or answer; order is kept |
| Faq.EmptySearchKeepsAll | client/src/pages/teleconseiller/faq.tsx:25-29 | an empty search keeps every entry |
| Faq.CategoryNotSearched | client/src/pages/admin/faq.tsx:97-98 | changing an entry's category never changes whether it matches |
| Faq.Categories | client/src/pages/teleconseiller/faq.tsx:21-23 | the tabs list each category of the full list once, exactly the categories present, in order of first occurrence |
| Faq.Tab | client/src/pages/teleconseiller/faq.tsx:57-58 | a tab lists exactly the filtered entries of its category, in order |
| Faq.EachEntryUnderOneTab | client/src/pages/teleconseiller/faq.tsx:54-58 | every filtered entry shows under a tab, and only under the tab of its own category |
| Faq.TabCanBeEmpty | client/src/pages/teleconseiller/faq.tsx:21-25 | tabs come from the full list, so a search can leave a listed tab empty |
| Faq.FormValues | client/src/pages/admin/faq.tsx:76-86 | leaving edit mode resets to an empty question and answer in "général"; editing loads the entry's values |
| Links.Filtered | client/src/pages/admin/links.tsx:102-105 | a link is kept exactly when the lowered search occurs in its lowered title or present description; order is kept |
| Links.EmptySearchKeepsAll | client/src/pages/teleconseiller/links.tsx:15-18 | an empty search keeps every link |
| Links.TitleAndDescriptionOnly | client/src/pages/teleconseiller/links.tsx:15-18 | the URL never affects a match, and without a description only the title counts |
| Links.TitleError | client/src/pages/admin/links.tsx:23-27 | a title is rejected with "Le titre est requis" exactly when it is empty |
| Links.SubmitLink | client/src/pages/admin/links.tsx:23-99 | the dialog's submit handler runs exactly when the title is non-empty, the URL rule passes and the description is a string rather than `null`, and then issues the create or update of `onSubmit` |

## Findings

| source | as written | input that shows it | evidently intended | confidence | as-written member | corrected member |
|---|---|---|---|---|---|---|
| server/routes.ts:125-130 | the call-log route parses the body with `insertCallLogSchema`, which requires `userId`, before it puts in the session user's id | the body of the dashboard's call form (client/src/pages/teleconseiller/dashboard.tsx:36-43), e.g. `{duration: 5, outcome: "rappel", notes: ""}`, which has no `userId` | parse with `userId` omitted, as the dashboard's form does, then put in the session user's id | not executed; the parse is read from the schema's required columns | Flow.DashboardCallLogRejected | Routes.PostCallLogIntended |

`Flow.DashboardCallLogFiled` proves that the corrected route stores the dashboard's body. `Routes.Serve` and `Routes.ServeKeepsConsistent` describe the server as written. The corrected route replaces only its call-log handler, and agrees with it on every body that carries a `userId`.

## Left out

- Database and ORM: Drizzle queries, SQL templates and jsonb `||` are
  modelled as maps and sequences. Serial ids are per-table counters that
  advance on every insert that takes its id from the sequence. The
  Postgres session store is left out.
- Integer width: `points`, `totalPoints` and ids are Postgres 32-bit
  `integer` columns, and an overflowing update raises an error. The model
  uses unbounded integers and does not model that error.
- Nullable counters: `users.points` and `users.level` are nullable
  columns with defaults; the model keeps them as plain integers filled
  by those defaults.
- Storage.CreateUser: `createUser` takes `insertUser: any` and inserts it
  unchanged (server/storage.ts:46-49). Its caller, the authentication
  setup, is not part of this model. The model assumes the caller passes
  only the `insertUserSchema` fields (username, password, role). A caller
  that also passes `id`, `points` or `level` is not modelled, so
  `Ledger.CreateUserKeepsConsistent` rests on new users starting at 0
  points.
- Source compile problems: `server/storage.ts` uses `scenarios` and
  `userProgress` without importing them, and `server/types.ts` omits the
  scenario and progress methods from `IStorage`. The model follows the
  evident intent.
- Concurrency: each storage call is one atomic, sequential step. The
  races of the read-then-insert upsert and of the two separate counter
  updates are not modelled.
- Timestamps: `createdAt` and `updatedAt` are not modelled.
- ScenarioGame.StartNewGame: `Math.random` becomes the `pick` parameter,
  an index into the loaded list.
- Timers: `setInterval` becomes a discrete tick event.
- Toasts: the answer and timeout toasts are not modelled, including the
  timeout toast firing again on a later re-render. The timeout notice is
  kept as an effect.
- Text.Lower: lowers only ASCII and Latin-1 capitals. Full Unicode case
  mapping is not modelled.
- Request parsing: a call-log body is modelled by which columns it
  carries; a value of the wrong JSON type is not modelled. The link URL
  rule (`z.string().url()`) is a boolean parameter of
  `Links.SubmitLink`. `parseInt` of a non-number path id is `None`. The
  handlers for rejected input reply with a thrown error.
- Authentication routes: `setupAuth` registers the login, logout,
  registration and current-user routes. The authentication setup is not
  part of this model, so `Routes.RouteTable` lists only the routes
  `registerRoutes` itself registers.
- Forms.OnSubmit: the contact, FAQ and link dialogs open only while an
  entry is being edited (`open={editingX !== null}`, contacts.tsx:149,
  faq.tsx:116, links.tsx:122). The "Nouveau" buttons do not set an
  entry, so they cannot open the dialog, and the create branch of
  `onSubmit` cannot be reached from the pages as written. The model keeps
  the branch as the handler defines it.
- Routes.Handle: covers only the call-log, scenario, answer and progress
  handlers. The content CRUD handlers for pages, contacts, FAQ and links
  are modelled through their guards in the route table only. Their
  storage calls are plain pass-through inserts, updates and deletes.
- Client plumbing: React Query caching and invalidation, `apiRequest` and
  HTTP transport, JSX rendering, layouts, the navbar and `App.tsx` routing.
- CSV download: the Blob and DOM download of the CSV is left out. The
  model stops at the CSV text.
- Loading states: the page filters take the loaded list. The `?.` on a
  list that has not loaded yet only yields an empty render.
- Other pages: `admin/pages.tsx`, `learning.tsx` and the dashboard's
  date and average figures are display code.
- Form resets of the contact and link dialogs: they have the same shape
  as the FAQ one, and only the FAQ reset is modelled.

=== FILE: contacts.dfy ===
/** The contact directory pages: the search filter (identical on the
    admin and teleconseiller pages) and the admin CSV export. */
module Contacts {
  import opened Wrappers
  import opened Schema
  import opened Text
  import Seqs

  /** The filter's test: the lowered search in the lowered name or email,
      or the search, as typed, in the phone number. */
  predicate Matches(c: Contact, search: string) {
    var q := Lower(search);
    || Includes(Lower(c.name), q)
    || (c.email.Some? && Includes(Lower(c.email.value), q))
    || (c.phone.Some? && Includes(c.phone.value, search))
  }

  /** `contacts.filter(...)` with the search box's text. */
  function Filtered(contacts: seq<Contact>, search: string): (r: seq<Contact>)
    ensures Seqs.IsSubsequence(r, contacts)
    ensures forall c :: c in r <==> (c in contacts &&
              (|| (exists i :: OccursAt(Lower(c.name), Lower(search), i))
               || (c.email.Some? && exists i :: OccursAt(Lower(c.email.value), Lower(search), i))
               || (c.phone.Some? && exists i :: OccursAt(c.phone.value, search, i))))
  {
    Seqs.Filter(contacts, (c: Contact) => Matches(c, search))
  }

  /** An empty search box lists every contact, in order. */
  lemma EmptySearchKeepsAll(contacts: seq<Contact>)
    ensures Filtered(contacts, "") == contacts
  {
    forall i | 0 <= i < |contacts| ensures Matches(contacts[i], "") {
      IncludesEmpty(Lower(contacts[i].name));
    }
    Seqs.FilterKeepsAll(contacts, (c: Contact) => Matches(c, ""));
  }

  /** A contact without email and phone can match only on its name. */
  lemma AbsentFieldsNeverMatch(c: Contact, search: string)
    requires c.email.None? && c.phone.None?
    ensures c in Filtered([c], search) <==> Includes(Lower(c.name), Lower(search))
  {
  }

  /** The phone number is searched as typed: "ab" does not find the phone
      "AB", though "AB" does. */
  lemma PhoneMatchIsCaseSensitive()
    ensures var c := Contact(1, "x", Some("AB"), None, None);
            Filtered([c], "ab") == [] && Filtered([c], "AB") == [c]
  {
    var c := Contact(1, "x", Some("AB"), None, None);
    assert Lower("x") == "x";
    assert Lower("ab") == "ab";
    assert Lower("AB") == "ab";
    assert !OccursAt("x", "ab", 0);
    assert "AB"[0] == 'A' && "ab"[0] == 'a';
    assert !OccursAt("AB", "ab", 0);
    assert Includes("AB", "AB");
  }

  // ---------------------------------------------------------------------
  // CSV export
  // ---------------------------------------------------------------------

  const Headers: seq<string> := ["Nom", "Téléphone", "Email", "Adresse"]

  /** A contact's four cells; a missing phone, email or address is "". */
  function Row(c: Contact): (cells: seq<string>)
    ensures |cells| == 4 && cells[0] == c.name
    ensures cells[1] == (if c.phone.Some? then c.phone.value else "")
    ensures cells[2] == (if c.email.Some? then c.email.value else "")
    ensures cells[3] == (if c.address.Some? then c.address.value else "")
  {
    [c.name, c.phone.GetOr(""), c.email.GetOr(""), c.address.GetOr("")]
  }

  function RowLines(contacts: seq<Contact>): (lines: seq<string>)
    ensures |lines| == |contacts|
    ensures forall i :: 0 <= i < |contacts| ==> lines[i] == Join(Row(contacts[i]), ',')
  {
    seq(|contacts|, i requires 0 <= i < |contacts| => Join(Row(contacts[i]), ','))
  }

  /** No cell of any contact holds a comma or a line break. */
  predicate PlainCells(contacts: seq<Contact>) {
    forall i, k :: 0 <= i < |contacts| && 0 <= k < 4 ==>
      ',' !in Row(contacts[i])[k] && '\n' !in Row(contacts[i])[k]
  }

  /** `exportContacts`: nothing while the list is not loaded; otherwise the
      header line and one line per contact of the full (unfiltered) list,
      cells joined by "," and lines by "\n", without quoting and without a
      final line break. When no cell holds a comma or line break, splitting
      the text recovers the header and every contact's cells. */
  function ExportContacts(contacts: Option<seq<Contact>>): (csv: Option<string>)
    ensures contacts.None? <==> csv.None?
    // Whatever the cells hold, the first line is the header, and at least
    // one line follows it per contact.
    ensures contacts.Some? ==>
              var lines := Split(csv.value, '\n');
              |lines| >= |contacts.value| + 1 && lines[0] == "Nom,Téléphone,Email,Adresse"
    ensures contacts.Some? && PlainCells(contacts.value) ==>
              var lines := Split(csv.value, '\n');
              && |lines| == |contacts.value| + 1
              && Split(lines[0], ',') == Headers
              && forall i :: 0 <= i < |contacts.value| ==> Split(lines[i + 1], ',') == Row(contacts.value[i])
  {
    match contacts
    case None => None
    case Some(cs) =>
      HeaderRoundTrip();
      HeaderLineText();
      FirstLineFirst(Join(Headers, ','), RowLines(cs));
      CsvRoundTrip(cs);
      Some(Join([Join(Headers, ',')] + RowLines(cs), '\n'))
  }

  lemma {:induction false} JoinHasNoOtherChar(parts: seq<string>, sep: char, c: char)
    requires c != sep
    requires forall k :: 0 <= k < |parts| ==> c !in parts[k]
    ensures c !in Join(parts, sep)
    decreases |parts|
  {
    if |parts| > 1 {
      JoinHasNoOtherChar(parts[1..], sep, c);
    }
  }

  /** The header line splits back into the four column names. */
  lemma HeaderRoundTrip()
    ensures '\n' !in Join(Headers, ',')
    ensures Split(Join(Headers, ','), ',') == Headers
  {
    assert forall k :: 0 <= k < 4 ==> '\n' !in Headers[k] && ',' !in Headers[k];
    JoinHasNoOtherChar(Headers, ',', '\n');
    SplitJoin(Headers, ',');
  }

  /** A contact's line splits back into its cells when they are plain. */
  lemma LineRoundTrip(c: Contact)
    requires forall k :: 0 <= k < 4 ==> ',' !in Row(c)[k] && '\n' !in Row(c)[k]
    ensures '\n' !in Join(Row(c), ',')
    ensures Split(Join(Row(c), ','), ',') == Row(c)
  {
    JoinHasNoOtherChar(Row(c), ',', '\n');
    SplitJoin(Row(c), ',');
  }

  /** A first line without a line break comes back first, whatever the
      other lines hold. */
  lemma FirstLineFirst(first: string, rest: seq<string>)
    requires '\n' !in first
    ensures var lines := Split(Join([first] + rest, '\n'), '\n');
            |lines| >= |rest| + 1 && lines[0] == first
  {
    SplitNoSep(first, '\n');
    SplitJoinPrefix([first] + rest, '\n');
  }

  lemma HeaderLineText()
    ensures Join(Headers, ',') == "Nom,Téléphone,Email,Adresse"
  {
  }

  /** Plain cells make every contact line free of line breaks and split
      back into the contact's cells. */
  lemma PlainRowLines(cs: seq<Contact>)
    requires PlainCells(cs)
    ensures forall i :: 0 <= i < |cs| ==>
              '\n' !in RowLines(cs)[i] && Split(RowLines(cs)[i], ',') == Row(cs[i])
  {
    forall i | 0 <= i < |cs|
      ensures '\n' !in RowLines(cs)[i] && Split(RowLines(cs)[i], ',') == Row(cs[i])
    {
      LineRoundTrip(cs[i]);
    }
  }

  lemma CsvRoundTrip(cs: seq<Contact>)
    ensures PlainCells(cs) ==>
              var lines := [Join(Headers, ',')] + RowLines(cs);
              && Split(Join(lines, '\n'), '\n') == lines
              && Split(lines[0], ',') == Headers
              && forall i :: 0 <= i < |cs| ==> Split(lines[i + 1], ',') == Row(cs[i])
  {
    if PlainCells(cs) {
      var rows := RowLines(cs);
      var lines := [Join(Headers, ',')] + rows;
      HeaderRoundTrip();
      PlainRowLines(cs);
      assert forall i :: 0 <= i < |rows| ==> lines[i + 1] == rows[i];
      assert forall k :: 0 <= k < |lines| ==> '\n' !in lines[k] by {
        forall k | 0 <= k < |lines| ensures '\n' !in lines[k] {
          if k > 0 {
            assert lines[k] == rows[k - 1];
          }
        }
      }
      SplitJoin(lines, '\n');
    }
  }

  /** The export of a single contact whose cells hold no line break is
      the header line and that contact's line. */
  lemma SingleContactLines(c: Contact)
    requires forall k :: 0 <= k < 4 ==> '\n' !in Row(c)[k]
    ensures Split(ExportContacts(Some([c])).value, '\n') == [Join(Headers, ','), Join(Row(c), ',')]
  {
    HeaderRoundTrip();
    JoinHasNoOtherChar(Row(c), ',', '\n');
    var lines := [Join(Headers, ',')] + RowLines([c]);
    assert lines == [Join(Headers, ','), Join(Row(c), ',')];
    SplitJoin(lines, '\n');
  }

  /** The address "a,b" after two empty cells splits into four cells. */
  lemma TailCells()
    ensures Split(",,a,b", ',') == ["", "", "a", "b"]
  {
    SplitNoSep("a", ',');
    SplitNoSep("b", ',');
    assert ",,a,b" == "" + [','] + "" + [','] + "a" + [','] + "b";
    SplitConcat("", ',', "" + [','] + "a" + [','] + "b");
    SplitConcat("", ',', "a" + [','] + "b");
    SplitConcat("a", ',', "b");
  }

  /** The line "n,,,a,b" splits into five cells. */
  lemma FiveCells()
    ensures Split("n,,,a,b", ',') == ["n", "", "", "a", "b"]
  {
    TailCells();
    assert "n,,,a,b" == "n" + [','] + ",,a,b";
    SplitAtSep("n", ',', ",,a,b");
  }

  /** Without quoting, a comma inside an address shifts the columns: the
      contact's line splits into five cells instead of four. */
  lemma CommaInCellSplitsIt()
    ensures var c := Contact(1, "n", None, None, Some("a,b"));
            var lines := Split(ExportContacts(Some([c])).value, '\n');
            |lines| == 2 && Split(lines[1], ',') == ["n", "", "", "a", "b"]
  {
    var c := Contact(1, "n", None, None, Some("a,b"));
    assert Row(c) == ["n", "", "", "a,b"];
    SingleContactLines(c);
    assert Join(Row(c), ',') == "n,,,a,b";
    FiveCells();
  }
}

=== FILE: faq.dfy ===
/** The FAQ pages: the search filter (identical on the admin and
    teleconseiller pages), the category tabs, and the admin form reset. */
module Faq {
  import opened Wrappers
  import opened Schema
  import opened Text
  import Seqs

  /** The lowered search in the lowered question or answer; the category
      is not searched. */
  predicate Matches(e: FaqEntry, search: string) {
    Includes(Lower(e.question), Lower(search)) || Includes(Lower(e.answer), Lower(search))
  }

  /** `faqEntries.filter(...)` with the search box's text. */
  function Filtered(entries: seq<FaqEntry>, search: string): (r: seq<FaqEntry>)
    ensures Seqs.IsSubsequence(r, entries)
    ensures forall e :: e in r <==> (e in entries &&
              ((exists i :: OccursAt(Lower(e.question), Lower(search), i))
               || (exists i :: OccursAt(Lower(e.answer), Lower(search), i))))
  {
    Seqs.Filter(entries, (e: FaqEntry) => Matches(e, search))
  }

  lemma EmptySearchKeepsAll(entries: seq<FaqEntry>)
    ensures Filtered(entries, "") == entries
  {
    forall i | 0 <= i < |entries| ensures Matches(entries[i], "") {
      IncludesEmpty(Lower(entries[i].question));
    }
    Seqs.FilterKeepsAll(entries, (e: FaqEntry) => Matches(e, ""));
  }

  /** Changing an entry's category never changes whether it matches. */
  lemma CategoryNotSearched(e: FaqEntry, category: string, search: string)
    ensures e in Filtered([e], search) <==> e.(category := category) in Filtered([e.(category := category)], search)
  {
  }

  /** The category of each entry, in list order. */
  function CategoryList(entries: seq<FaqEntry>): (cs: seq<string>)
    ensures |cs| == |entries| && forall i :: 0 <= i < |entries| ==> cs[i] == entries[i].category
  {
    seq(|entries|, i requires 0 <= i < |entries| => entries[i].category)
  }

  /** `Array.from(new Set(faqEntries.map(e => e.category)))`: every
      category of the full list once, in order of first occurrence. */
  function Categories(entries: seq<FaqEntry>): (r: seq<string>)
    ensures Seqs.Distinct(r)
    ensures forall c :: c in r <==> exists i :: 0 <= i < |entries| && entries[i].category == c
    ensures Seqs.FirstOccurrenceOrder(CategoryList(entries), r)
  {
    var cs := CategoryList(entries);
    assert forall c :: c in cs <==> exists i :: 0 <= i < |entries| && entries[i].category == c by {
      forall c | c in cs ensures exists i :: 0 <= i < |entries| && entries[i].category == c {
        var i :| 0 <= i < |cs| && cs[i] == c;
      }
    }
    Seqs.Dedup(cs)
  }

  /** The entries a category's tab lists: the filtered entries of that
      category, in order. */
  function Tab(filtered: seq<FaqEntry>, category: string): (r: seq<FaqEntry>)
    ensures forall e :: e in r <==> e in filtered && e.category == category
    ensures Seqs.IsSubsequence(r, filtered)
  {
    Seqs.Filter(filtered, (e: FaqEntry) => e.category == category)
  }

  /** Every entry the search keeps shows under exactly one tab: the one
      of its own category. */
  lemma EachEntryUnderOneTab(entries: seq<FaqEntry>, search: string, e: FaqEntry)
    requires e in Filtered(entries, search)
    ensures var cats := Categories(entries);
            exists k :: 0 <= k < |cats| && cats[k] == e.category && e in Tab(Filtered(entries, search), cats[k])
    ensures var cats := Categories(entries);
            forall k :: 0 <= k < |cats| && e in Tab(Filtered(entries, search), cats[k]) ==> cats[k] == e.category
  {
    var cats := Categories(entries);
    var i :| 0 <= i < |entries| && entries[i] == e;
    assert e.category in cats;
    var k :| 0 <= k < |cats| && cats[k] == e.category;
    assert e in Tab(Filtered(entries, search), cats[k]);
  }

  /** Tabs come from the whole list, not from the search result, so a
      listed category can show an empty tab. */
  lemma TabCanBeEmpty()
    ensures var entries := [FaqEntry(1, "q", "a", "c")];
            Categories(entries) == ["c"] && Tab(Filtered(entries, "z"), "c") == []
  {
    var entries := [FaqEntry(1, "q", "a", "c")];
    var cats := Categories(entries);
    assert "c" in cats;
    assert |cats| == 1;
    assert Lower("q") == "q" && Lower("a") == "a" && Lower("z") == "z";
    assert "q"[0] == 'q' && "a"[0] == 'a' && "z"[0] == 'z';
    assert "q"[0..1] != "z" && "a"[0..1] != "z";
    assert Filtered(entries, "z") == [];
  }

  /** The admin dialog's form values. */
  datatype FaqForm = FaqForm(question: string, answer: string, category: string)

  const DefaultCategory := "général"

  /** The form reset when the edited entry changes: the entry's own values
      while editing, blank question and answer in "général" otherwise. */
  function FormValues(editing: Option<FaqEntry>): (f: FaqForm)
    ensures editing.None? ==> f == FaqForm("", "", "général")
    ensures editing.Some? ==>
              f.question == editing.value.question && f.answer == editing.value.answer
              && f.category == editing.value.category
  {
    match editing
    case Some(e) => FaqForm(e.question, e.answer, e.category)
    case None => FaqForm("", "", DefaultCategory)
  }
}

=== FILE: flow.dfy ===
/** The round trip of one answer: the client's submission effect becomes a
    request to the answer route, which the server evaluates. */
module Flow {
  import opened Wrappers
  import opened Schema
  import opened Storage
  import opened Routes
  import opened ScenarioGame
  import Forms
  import FaqPage = Faq
  import LinkPage = Links

  /** The request `submitAnswerMutation` sends for a submission. */
  function RequestOf(e: Effect): (req: ApiRequest)
    requires e.SubmitAnswer?
    ensures req.AnswerScenario? && req.id == Some(e.scenarioId) && req.answer == Num(e.answer)
  {
    AnswerScenario(Some(e.scenarioId), Num(e.answer))
  }

  /** Clicking choice `i` on a scenario served from the catalogue gets the
      verdict "correct" exactly when `i` is the scenario's correct index,
      with the scenario's points or 0. */
  lemma ChosenAnswerVerdict(db: Db, user: User, s: Session, k: nat, i: int)
    requires ScenarioIdsDistinct(db.scenarios)
    requires k < |db.scenarios| && s.current == Some(db.scenarios[k])
    requires Offered(s, i)
    ensures var sc := db.scenarios[k];
            Serve(db, SignedIn(user), RequestOf(HandleAnswer(s, i).1)).0
              == Answered(Verdict(i == sc.correctAnswer, if i == sc.correctAnswer then sc.points else 0))
  {
    FindScenarioUnique(db.scenarios, k);
  }

  const Sample := Scenario(7, "Appel", "Un adhérent appelle", ["a", "b", "c"], 2, 10, "accueil", Easy)

  /** The worked examples: choosing index 2 of scenario 7 (correct answer
      2, 10 points) wins 10 points and lists 7; index 0 wins nothing and
      writes nothing; scenario 9999 does not exist. */
  lemma SampleAnswers(db: Db, userId: int)
    requires db.scenarios == [Sample]
    requires userId in db.users
    ensures var r := SubmitScenarioAnswer(db, userId, 7, Num(2));
            && r.result == Success(Verdict(true, 10))
            && TotalPointsOf(r.db.progress, userId) == TotalPointsOf(db.progress, userId) + 10
            && 7 in FindProgress(r.db.progress, userId).value.completedScenarios
    ensures SubmitScenarioAnswer(db, userId, 7, Num(0)) == Step(Success(Verdict(false, 0)), db)
    ensures SubmitScenarioAnswer(db, userId, 9999, Num(2)) == Step(Failure(ScenarioNotFound), db)
  {
    assert FindScenario(db.scenarios, 7) == Some(Sample);
    CorrectAnswerEffect(db, userId, 7, Num(2));
  }

  /** The HTTP call an admin dialog's mutation makes for a resource:
      `POST /api/<resource>` to create, `PUT /api/<resource>/:id` to update. */
  function MutationRoute<T>(res: Resource, m: Forms.Mutation<T>): (r: (Verb, Path))
    ensures m.Create? <==> r == (Post, Collection(res))
    ensures m.Update? <==> r == (Put, Item(res))
  {
    match m
    case Create(_) => (Post, Collection(res))
    case Update(_, _) => (Put, Item(res))
  }

  /** Whether it creates or updates, a submission of the contact, FAQ or
      link dialog reaches a registered route behind `requireAdmin`. */
  lemma DialogSubmitNeedsAdmin<T>(res: Resource, editingId: Option<int>, data: T)
    requires res == Contacts || res == Faq || res == Links
    ensures var (verb, path) := MutationRoute(res, Forms.OnSubmit(editingId, data));
            GuardFor(verb, path) == Some(AdminGuard)
  {
    var m := Forms.OnSubmit(editingId, data);
    var create := if res == Contacts then 4 else if res == Faq then 8 else 12;
    if m.Create? {
      assert RouteTable[create] == Route(Post, Collection(res), AdminGuard);
      GuardForTable(create);
    } else {
      assert RouteTable[create + 2] == Route(Put, Item(res), AdminGuard);
      GuardForTable(create + 2);
    }
  }

  /** A link dialog sends nothing while the title is empty; when it does
      send, the title is non-empty and the request lands on an
      admin-guarded route. */
  lemma LinkSubmitNeedsTitle(editingId: Option<int>, form: LinkPage.LinkForm, urlValid: bool)
    ensures LinkPage.SubmitLink(editingId, form, urlValid).Some? ==> |form.title| > 0
    ensures |form.title| == 0 ==> LinkPage.SubmitLink(editingId, form, urlValid).None?
    ensures var m := LinkPage.SubmitLink(editingId, form, urlValid);
            m.Some? ==> m.value.data == form
                        && var (verb, path) := MutationRoute(Links, m.value);
                           GuardFor(verb, path) == Some(AdminGuard)
  {
    DialogSubmitNeedsAdmin(Links, editingId, form);
  }

  /** Editing a stored link and submitting its loaded values unchanged:
      a link stored without a description fails validation and sends
      nothing, whatever its title and URL; one with a description, a
      non-empty title and a valid URL is sent back as an update of that
      link. */
  lemma LinkEditUnchanged(l: Link, urlValid: bool)
    ensures l.description.None? ==> LinkPage.SubmitLink(Some(l.id), LinkPage.EditValues(l), urlValid).None?
    ensures l.description.Some? && |l.title| > 0 && urlValid ==>
              LinkPage.SubmitLink(Some(l.id), LinkPage.EditValues(l), urlValid)
                == Some(Forms.Update(l.id, LinkPage.LinkForm(l.title, l.url, l.description)))
  {
  }

  /** Opening an FAQ entry for editing and submitting the form unchanged
      sends the entry's own question, answer and category as an update of
      that entry to `PUT /api/faq/:id`, behind `requireAdmin`; the blank
      form of the create mode would be a `POST /api/faq` of an empty
      question and answer in "général". */
  lemma FaqEditUnchangedSendsEntry(e: FaqEntry)
    ensures var m := Forms.OnSubmit(Some(e.id), FaqPage.FormValues(Some(e)));
            && m == Forms.Update(e.id, FaqPage.FaqForm(e.question, e.answer, e.category))
            && MutationRoute(Faq, m) == (Put, Item(Faq))
            && GuardFor(Put, Item(Faq)) == Some(AdminGuard)
    ensures var m := Forms.OnSubmit(None, FaqPage.FormValues(None));
            && m == Forms.Create(FaqPage.FaqForm("", "", "général"))
            && MutationRoute(Faq, m) == (Post, Collection(Faq))
            && GuardFor(Post, Collection(Faq)) == Some(AdminGuard)
  {
    DialogSubmitNeedsAdmin(Faq, Some(e.id), FaqPage.FormValues(Some(e)));
    DialogSubmitNeedsAdmin(Faq, None, FaqPage.FormValues(None));
  }

  /** The body the dashboard's "Enregistrer un Appel" form posts: values
      validated against `insertCallLogSchema.omit({ userId: true })`, so
      it carries no `userId` (and no `id`). */
  function DashboardBody(duration: int, outcome: string, notes: string): CallLogBody {
    CallLogBody(None, None, Some(duration), Some(outcome), Some(notes))
  }

  /** As written, the call-log route parses that body with the full insert
      schema, which requires `userId`, before it puts in the session
      user's id: every call the dashboard records is rejected and nothing
      is stored. */
  lemma DashboardCallLogRejected(db: Db, user: User, duration: int, outcome: string, notes: string)
    ensures Serve(db, SignedIn(user), PostCallLog(DashboardBody(duration, outcome, notes)))
              == (Thrown(InvalidBody), db)
  {
  }

  /** With `userId` omitted from the parse, the same body is filed under
      the session user with the form's values and the next serial id,
      provided that id is not taken. */
  lemma DashboardCallLogFiled(db: Db, user: User, duration: int, outcome: string, notes: string)
    requires forall i :: 0 <= i < |db.callLogs| ==> db.callLogs[i].id != db.callLogSerial
    ensures var r := PostCallLogIntended(db, user, DashboardBody(duration, outcome, notes));
            && r.0 == CallLogCreated(CallLog(db.callLogSerial, user.id, duration, outcome, Some(notes)))
            && r.1.callLogs == db.callLogs + [r.0.log]
            && r.1.callLogSerial == db.callLogSerial + 1
  {
  }
}

=== FILE: forms.dfy ===
/** The submit handler shared by the admin contact, FAQ and link dialogs. */
module Forms {
  import opened Wrappers

  /** The request a dialog submission issues. */
  datatype Mutation<T> = Create(data: T) | Update(id: int, data: T)

  /** `onSubmit(data)`: an update of the row being edited, if any, and a
      create otherwise; the form data is sent unchanged either way. */
  function OnSubmit<T>(editingId: Option<int>, data: T): (m: Mutation<T>)
    ensures m.data == data
    ensures m.Update? <==> editingId.Some?
    ensures m.Update? ==> m.id == editingId.value
  {
    match editingId
    case Some(id) => Update(id, data)
    case None => Create(data)
  }
}

=== FILE: ledger.dfy ===
/** Invariants over the whole database that the storage calls preserve:
    key and uniqueness discipline, one progress row per user, a progress
    total that is the sum of its completed scenarios' points, and a
    `users.points` counter that agrees with the progress total. */
module Ledger {
  import opened Wrappers
  import opened Schema
  import opened Storage

  /** The points a completed scenario id stands for (0 for an unknown id). */
  function ScenarioPoints(scenarios: seq<Scenario>, id: int): int {
    match FindScenario(scenarios, id)
    case Some(s) => s.points
    case None => 0
  }

  /** The points of a list of completed scenario ids, repeats included. */
  function SumPoints(scenarios: seq<Scenario>, ids: seq<int>): int
    decreases |ids|
  {
    if |ids| == 0 then 0
    else SumPoints(scenarios, ids[..|ids| - 1]) + ScenarioPoints(scenarios, ids[|ids| - 1])
  }

  /** Every progress total is what its completed list is worth. */
  ghost predicate BalancedRows(scenarios: seq<Scenario>, rows: seq<Progress>) {
    forall i :: 0 <= i < |rows| ==> rows[i].totalPoints == SumPoints(scenarios, rows[i].completedScenarios)
  }

  ghost predicate Balanced(db: Db) {
    BalancedRows(db.scenarios, db.progress)
  }

  /** The denormalised `users.points` equals the user's progress total,
      and progress rows belong to existing users. */
  ghost predicate CountersAgree(db: Db) {
    && (forall id :: id in db.users ==> db.users[id].points == TotalPointsOf(db.progress, id))
    && (forall i :: 0 <= i < |db.progress| ==> db.progress[i].userId in db.users)
  }

  ghost predicate Consistent(db: Db) {
    Valid(db) && Balanced(db) && CountersAgree(db)
  }

  /** A database with its scenario catalogue loaded and nothing else. */
  function Initial(scenarios: seq<Scenario>): (db: Db)
    ensures db.users == map[] && db.progress == [] && db.callLogs == [] && db.pages == []
    ensures db.scenarios == scenarios
  {
    Db(map[], 1, [], 1, scenarios, [], [], 1)
  }

  lemma InitialConsistent(scenarios: seq<Scenario>)
    requires ScenarioIdsDistinct(scenarios)
    ensures Consistent(Initial(scenarios))
  {
  }

  /** Appending a completed scenario adds exactly its points. */
  lemma SumPointsAppend(scenarios: seq<Scenario>, ids: seq<int>, id: int)
    ensures SumPoints(scenarios, ids + [id]) == SumPoints(scenarios, ids) + ScenarioPoints(scenarios, id)
  {
    assert (ids + [id])[..|ids|] == ids;
  }

  /** Crediting rows keeps each row's owner and position. */
  lemma CreditRowsOwners(rows: seq<Progress>, userId: int, scenarioId: int, n: int)
    ensures var r := CreditRows(rows, userId, scenarioId, n);
            forall i :: 0 <= i < |rows| ==> r[i].userId == rows[i].userId
  {
  }

  /** Crediting a row with a scenario's own points keeps it balanced. */
  lemma CreditRowsBalanced(scenarios: seq<Scenario>, rows: seq<Progress>, userId: int, scenarioId: int, n: int)
    requires BalancedRows(scenarios, rows)
    requires ScenarioPoints(scenarios, scenarioId) == n
    ensures BalancedRows(scenarios, CreditRows(rows, userId, scenarioId, n))
  {
    var r := CreditRows(rows, userId, scenarioId, n);
    forall i | 0 <= i < |r|
      ensures r[i].totalPoints == SumPoints(scenarios, r[i].completedScenarios)
    {
      if rows[i].userId == userId {
        SumPointsAppend(scenarios, rows[i].completedScenarios, scenarioId);
      }
    }
  }

  /** A first row holding one answer worth its scenario's points is balanced. */
  lemma FirstAnswerRowBalanced(scenarios: seq<Scenario>, rows: seq<Progress>, userId: int, scenarioId: int, n: int)
    requires BalancedRows(scenarios, rows)
    requires ScenarioPoints(scenarios, scenarioId) == n
    ensures BalancedRows(scenarios, rows + [Progress(userId, n, [scenarioId], [], [], 1)])
  {
    SumPointsAppend(scenarios, [], scenarioId);
    assert [] + [scenarioId] == [scenarioId];
    var r := rows + [Progress(userId, n, [scenarioId], [], [], 1)];
    forall i | 0 <= i < |r|
      ensures r[i].totalPoints == SumPoints(scenarios, r[i].completedScenarios)
    {
      if i < |rows| {
        assert r[i] == rows[i];
      }
    }
  }

  lemma SubmitKeepsBalanced(db: Db, userId: int, scenarioId: int, answer: AnswerValue)
    requires Balanced(db)
    ensures Balanced(SubmitScenarioAnswer(db, userId, scenarioId, answer).db)
  {
    var r := SubmitScenarioAnswer(db, userId, scenarioId, answer);
    match FindScenario(db.scenarios, scenarioId) {
      case None =>
      case Some(s) =>
        if answer == Num(s.correctAnswer) {
          assert ScenarioPoints(db.scenarios, scenarioId) == s.points;
          if FindProgress(db.progress, userId).Some? {
            CreditRowsBalanced(db.scenarios, db.progress, userId, scenarioId, s.points);
          } else {
            FirstAnswerRowBalanced(db.scenarios, db.progress, userId, scenarioId, s.points);
          }
        }
    }
  }

  /** Adding points changes no user's id or username. */
  lemma AwardKeepsUsersWellKeyed(db: Db, userId: int, n: int)
    requires UsersWellKeyed(db)
    ensures UsersWellKeyed(db.(users := AwardUserPoints(db.users, userId, n)))
  {
    var users := AwardUserPoints(db.users, userId, n);
    assert forall id :: id in users ==> users[id].id == db.users[id].id && users[id].username == db.users[id].username;
  }

  /** Crediting rows in place keeps one row per user. */
  lemma CreditKeepsOneRow(rows: seq<Progress>, userId: int, scenarioId: int, n: int)
    requires OneProgressPerUser(rows)
    ensures OneProgressPerUser(CreditRows(rows, userId, scenarioId, n))
  {
    CreditRowsOwners(rows, userId, scenarioId, n);
  }

  /** A row for a user without one keeps one row per user. */
  lemma NewRowKeepsOneRow(rows: seq<Progress>, row: Progress)
    requires OneProgressPerUser(rows)
    requires FindProgress(rows, row.userId).None?
    ensures OneProgressPerUser(rows + [row])
  {
    assert forall i :: 0 <= i < |rows| ==> rows[i] in rows && (rows + [row])[i] == rows[i];
  }

  lemma SubmitKeepsValid(db: Db, userId: int, scenarioId: int, answer: AnswerValue)
    requires Valid(db)
    ensures Valid(SubmitScenarioAnswer(db, userId, scenarioId, answer).db)
  {
    match FindScenario(db.scenarios, scenarioId) {
      case None =>
      case Some(s) =>
        if answer == Num(s.correctAnswer) {
          AwardKeepsUsersWellKeyed(db, userId, s.points);
          if FindProgress(db.progress, userId).Some? {
            CreditKeepsOneRow(db.progress, userId, scenarioId, s.points);
          } else {
            NewRowKeepsOneRow(db.progress, Progress(userId, s.points, [scenarioId], [], [], 1));
          }
        }
    }
  }

  /** After a correct answer every user's counter still equals their
      progress total: the answering user's both grew by the points. */
  lemma CorrectAnswerCountersMatch(db: Db, userId: int, scenarioId: int, answer: AnswerValue)
    requires CountersAgree(db)
    requires FindScenario(db.scenarios, scenarioId).Some?
    requires answer == Num(FindScenario(db.scenarios, scenarioId).value.correctAnswer)
    ensures var db' := SubmitScenarioAnswer(db, userId, scenarioId, answer).db;
            forall id :: id in db'.users ==> db'.users[id].points == TotalPointsOf(db'.progress, id)
  {
    var db' := SubmitScenarioAnswer(db, userId, scenarioId, answer).db;
    CorrectAnswerEffect(db, userId, scenarioId, answer);
    forall id | id in db'.users
      ensures db'.users[id].points == TotalPointsOf(db'.progress, id)
    {
      if id != userId {
        assert FindProgress(db'.progress, id) == FindProgress(db.progress, id);
      }
    }
  }

  /** After a correct answer of an existing user every progress row still
      belongs to an existing user. */
  lemma CorrectAnswerRowsOwned(db: Db, userId: int, scenarioId: int, answer: AnswerValue)
    requires CountersAgree(db)
    requires userId in db.users
    requires FindScenario(db.scenarios, scenarioId).Some?
    requires answer == Num(FindScenario(db.scenarios, scenarioId).value.correctAnswer)
    ensures var db' := SubmitScenarioAnswer(db, userId, scenarioId, answer).db;
            forall i :: 0 <= i < |db'.progress| ==> db'.progress[i].userId in db'.users
  {
    var s := FindScenario(db.scenarios, scenarioId).value;
    var db' := SubmitScenarioAnswer(db, userId, scenarioId, answer).db;
    assert db'.users.Keys == db.users.Keys;
    if FindProgress(db.progress, userId).Some? {
      CreditRowsOwners(db.progress, userId, scenarioId, s.points);
    } else {
      forall i | 0 <= i < |db'.progress|
        ensures db'.progress[i].userId in db'.users
      {
        if i < |db.progress| {
          assert db'.progress[i] == db.progress[i];
        }
      }
    }
  }

  lemma SubmitKeepsCountersAgree(db: Db, userId: int, scenarioId: int, answer: AnswerValue)
    requires CountersAgree(db)
    requires userId in db.users
    ensures CountersAgree(SubmitScenarioAnswer(db, userId, scenarioId, answer).db)
  {
    match FindScenario(db.scenarios, scenarioId) {
      case None =>
      case Some(s) =>
        if answer == Num(s.correctAnswer) {
          CorrectAnswerCountersMatch(db, userId, scenarioId, answer);
          CorrectAnswerRowsOwned(db, userId, scenarioId, answer);
        }
    }
  }

  /** Answering, for the session's (existing) user, keeps every invariant. */
  lemma SubmitKeepsConsistent(db: Db, userId: int, scenarioId: int, answer: AnswerValue)
    requires Consistent(db)
    requires userId in db.users
    ensures Consistent(SubmitScenarioAnswer(db, userId, scenarioId, answer).db)
  {
    SubmitKeepsValid(db, userId, scenarioId, answer);
    SubmitKeepsBalanced(db, userId, scenarioId, answer);
    SubmitKeepsCountersAgree(db, userId, scenarioId, answer);
  }

  /** Appending the default row of a user without one: that user now
      finds it, every other user finds what they found before. */
  lemma DefaultRowLookups(rows: seq<Progress>, userId: int)
    requires FindProgress(rows, userId).None?
    ensures forall id :: FindProgress(rows + [DefaultProgress(userId)], id) ==
              if id == userId then Some(DefaultProgress(userId)) else FindProgress(rows, id)
  {
    forall id {
      FindProgressAppend(rows, DefaultProgress(userId), id);
    }
  }

  /** The default row is the user's only one and is worth its 0 points. */
  lemma DefaultRowKeepsRowInvariants(scenarios: seq<Scenario>, rows: seq<Progress>, userId: int)
    requires OneProgressPerUser(rows) && BalancedRows(scenarios, rows)
    requires FindProgress(rows, userId).None?
    ensures var rows' := rows + [DefaultProgress(userId)];
            OneProgressPerUser(rows') && BalancedRows(scenarios, rows')
  {
    var rows' := rows + [DefaultProgress(userId)];
    assert forall i :: 0 <= i < |rows| ==> rows[i] in rows && rows'[i] == rows[i];
    assert rows'[|rows|] == DefaultProgress(userId);
  }

  /** Viewing progress, for the session's user, keeps every invariant. */
  lemma GetUserProgressKeepsConsistent(db: Db, userId: int)
    requires Consistent(db)
    requires userId in db.users
    ensures Consistent(GetUserProgress(db, userId).db)
  {
    var r := GetUserProgress(db, userId);
    if FindProgress(db.progress, userId).None? {
      var row := DefaultProgress(userId);
      assert r.db == db.(progress := db.progress + [row]);
      DefaultRowLookups(db.progress, userId);
      DefaultRowKeepsRowInvariants(db.scenarios, db.progress, userId);
      assert forall i :: 0 <= i < |db.progress| ==> r.db.progress[i] == db.progress[i];
    }
  }

  /** Under `Valid` the fresh serial id is never taken, so creating a user
      fails exactly when the username is. */
  lemma CreateUserFailsOnlyOnTakenName(db: Db, ins: InsertUser)
    requires Valid(db)
    ensures CreateUser(db, ins).result.Failure? <==>
              exists id :: id in db.users && db.users[id].username == ins.username
  {
  }

  /** A new user starts at 0 points with no progress row, so the counters
      still agree. */
  lemma CreateUserKeepsConsistent(db: Db, ins: InsertUser)
    requires Consistent(db)
    ensures Consistent(CreateUser(db, ins).db)
  {
    var r := CreateUser(db, ins);
    if r.result.Success? {
      var u := r.result.value;
      assert FindProgress(db.progress, u.id).None?;
      forall a, b | a in r.db.users && b in r.db.users && r.db.users[a].username == r.db.users[b].username
        ensures a == b
      {
      }
    }
  }

  lemma CreatePageKeepsConsistent(db: Db, ins: InsertPage)
    requires Consistent(db)
    ensures Consistent(CreatePage(db, ins).db)
  {
  }

  lemma CreateCallLogKeepsConsistent(db: Db, log: InsertCallLog)
    requires Consistent(db)
    ensures Consistent(CreateCallLog(db, log).db)
  {
  }
}

=== FILE: links.dfy ===
/** The useful-links pages: the search filter (identical on the admin and
    teleconseiller pages) and the title rule of the admin form. */
module Links {
  import opened Wrappers
  import opened Schema
  import opened Text
  import Seqs
  import Forms

  /** The lowered search in the lowered title or, when there is one, the
      lowered description; the URL is not searched. */
  predicate Matches(l: Link, search: string) {
    || Includes(Lower(l.title), Lower(search))
    || (l.description.Some? && Includes(Lower(l.description.value), Lower(search)))
  }

  /** `links.filter(...)` with the search box's text. */
  function Filtered(links: seq<Link>, search: string): (r: seq<Link>)
    ensures Seqs.IsSubsequence(r, links)
    ensures forall l :: l in r <==> (l in links &&
              ((exists i :: OccursAt(Lower(l.title), Lower(search), i))
               || (l.description.Some? && exists i :: OccursAt(Lower(l.description.value), Lower(search), i))))
  {
    Seqs.Filter(links, (l: Link) => Matches(l, search))
  }

  lemma EmptySearchKeepsAll(links: seq<Link>)
    ensures Filtered(links, "") == links
  {
    forall i | 0 <= i < |links| ensures Matches(links[i], "") {
      IncludesEmpty(Lower(links[i].title));
    }
    Seqs.FilterKeepsAll(links, (l: Link) => Matches(l, ""));
  }

  /** A link without a description matches on its title alone, and the
      URL never matters. */
  lemma TitleAndDescriptionOnly(l: Link, url: string, search: string)
    ensures l in Filtered([l], search) <==> l.(url := url) in Filtered([l.(url := url)], search)
    ensures l.description.None? ==> (l in Filtered([l], search) <==> Includes(Lower(l.title), Lower(search)))
  {
  }

  const TitleRequired := "Le titre est requis"

  /** `z.string().min(1, ...)` on the title: an error exactly for the
      empty title. */
  function TitleError(title: string): (r: Option<string>)
    ensures r.Some? <==> |title| == 0
    ensures r.Some? ==> r.value == "Le titre est requis"
  {
    if |title| < 1 then Some(TitleRequired) else None
  }

  /** The values of the link dialog's form. The description is `None`
      when it holds `null`, as it does after loading a link stored without
      one; both resets set the field, so it is never `undefined`. */
  datatype LinkForm = LinkForm(title: string, url: string, description: Option<string>)

  /** `form.reset(editingLink)`: the stored row's values, `null`
      description included. */
  function EditValues(l: Link): (f: LinkForm)
    ensures f.title == l.title && f.url == l.url && f.description == l.description
  {
    LinkForm(l.title, l.url, l.description)
  }

  /** `form.handleSubmit(onSubmit)` under `zodResolver(linkSchema)`: the
      form is validated first and `onSubmit` runs only when it is valid:
      a non-empty title, a URL (`urlValid` is the verdict of
      `z.string().url()`, whose URL grammar is not modelled), and a
      description that is a string, since `z.string().optional()` rejects
      `null`. */
  function SubmitLink(editingId: Option<int>, form: LinkForm, urlValid: bool): (r: Option<Forms.Mutation<LinkForm>>)
    ensures r.Some? <==> TitleError(form.title).None? && urlValid && form.description.Some?
    ensures r.Some? ==> r.value == Forms.OnSubmit(editingId, form)
  {
    if TitleError(form.title).Some? || !urlValid || form.description.None? then None
    else Some(Forms.OnSubmit(editingId, form))
  }
}

=== FILE: routes.dfy ===
/** The HTTP layer: the two guard middlewares, the table of registered
    routes with their guard, and the handlers of the core endpoints. */
module Routes {
  import opened Wrappers
  import opened Schema
  import opened Storage
  import Ledger

  /** What the session layer exposes: `req.isAuthenticated()` and `req.user`. */
  datatype Auth = Anonymous | SignedIn(user: User)

  /** A guard either calls `next()` or ends the response with a status. */
  datatype GuardResult = Next | Reject(status: int, message: string)

  /** `requireAuth`: 401 without a session. */
  function RequireAuth(auth: Auth): (r: GuardResult)
    ensures r.Next? <==> auth.SignedIn?
    ensures r.Reject? ==> r == Reject(401, "Unauthorized")
  {
    if !auth.SignedIn? then Reject(401, "Unauthorized") else Next
  }

  /** `requireAdmin`: 403, not 401, both without a session and for a
      non-admin role. */
  function RequireAdmin(auth: Auth): (r: GuardResult)
    ensures r.Next? <==> auth.SignedIn? && auth.user.role == Admin
    ensures r.Reject? ==> r == Reject(403, "Forbidden")
  {
    if !auth.SignedIn? || auth.user.role != Admin then Reject(403, "Forbidden") else Next
  }

  /** Whatever passes the admin guard passes the authentication guard. */
  lemma AdminGuardStricter(auth: Auth)
    ensures RequireAdmin(auth).Next? ==> RequireAuth(auth).Next?
    ensures auth.Anonymous? ==> RequireAuth(auth).status == 401 && RequireAdmin(auth).status == 403
  {
  }

  datatype Guard = AuthGuard | AdminGuard

  function ApplyGuard(g: Guard, auth: Auth): GuardResult {
    match g
    case AuthGuard => RequireAuth(auth)
    case AdminGuard => RequireAdmin(auth)
  }

  datatype Verb = Get | Post | Put | Delete

  /** The resources under `/api`. */
  datatype Resource = Pages | Contacts | Faq | Links | CallLogs | Scenarios | UserProgress

  /** A registered path pattern: `/api/<resource>`, `/api/<resource>/:id`,
      or `/api/scenarios/:id/answer`. */
  datatype Path = Collection(res: Resource) | Item(res: Resource) | ScenarioAnswer

  datatype Route = Route(verb: Verb, path: Path, guard: Guard)

  /** `registerRoutes`, in registration order. */
  const RouteTable: seq<Route> := [
    Route(Get, Collection(Pages), AuthGuard),
    Route(Post, Collection(Pages), AdminGuard),
    Route(Delete, Item(Pages), AdminGuard),
    Route(Get, Collection(Contacts), AuthGuard),
    Route(Post, Collection(Contacts), AdminGuard),
    Route(Delete, Item(Contacts), AdminGuard),
    Route(Put, Item(Contacts), AdminGuard),
    Route(Get, Collection(Faq), AuthGuard),
    Route(Post, Collection(Faq), AdminGuard),
    Route(Delete, Item(Faq), AdminGuard),
    Route(Put, Item(Faq), AdminGuard),
    Route(Get, Collection(Links), AuthGuard),
    Route(Post, Collection(Links), AdminGuard),
    Route(Delete, Item(Links), AdminGuard),
    Route(Put, Item(Links), AdminGuard),
    Route(Get, Collection(CallLogs), AuthGuard),
    Route(Post, Collection(CallLogs), AuthGuard),
    Route(Get, Collection(Scenarios), AuthGuard),
    Route(Post, ScenarioAnswer, AuthGuard),
    Route(Get, Collection(UserProgress), AuthGuard)
  ]

  /** The administrator-curated content: pages, contacts, FAQ and links. */
  predicate IsContentPath(p: Path) {
    (p.Collection? || p.Item?) && p.res in {Pages, Contacts, Faq, Links}
  }

  /** The guard of the first route registered for a verb and path. */
  function GuardFor(verb: Verb, path: Path): (r: Option<Guard>)
    ensures r.Some? ==> Route(verb, path, r.value) in RouteTable
    ensures r.None? ==> forall k :: 0 <= k < |RouteTable| ==> RouteTable[k].verb != verb || RouteTable[k].path != path
  {
    FirstGuard(RouteTable, verb, path)
  }

  function FirstGuard(routes: seq<Route>, verb: Verb, path: Path): (r: Option<Guard>)
    ensures r.Some? ==> Route(verb, path, r.value) in routes
    ensures r.None? ==> forall k :: 0 <= k < |routes| ==> routes[k].verb != verb || routes[k].path != path
    decreases |routes|
  {
    if |routes| == 0 then None
    else if routes[0].verb == verb && routes[0].path == path then Some(routes[0].guard)
    else FirstGuard(routes[1..], verb, path)
  }

  /** Every create, update and delete of curated content requires the
      admin role; every other route requires only a session. */
  lemma RouteGuardPolicy()
    ensures forall k :: 0 <= k < |RouteTable| ==>
              (RouteTable[k].guard == AdminGuard <==> RouteTable[k].verb != Get && IsContentPath(RouteTable[k].path))
  {
  }

  /** No verb and path pattern is registered twice, so the table is a
      function from route to guard. */
  lemma RouteTableUnambiguous()
    ensures forall i, j :: 0 <= i < j < |RouteTable| ==>
              RouteTable[i].verb != RouteTable[j].verb || RouteTable[i].path != RouteTable[j].path
  {
  }

  /** Looking up a registered route yields its guard. */
  lemma GuardForTable(k: nat)
    requires k < |RouteTable|
    ensures GuardFor(RouteTable[k].verb, RouteTable[k].path) == Some(RouteTable[k].guard)
  {
    RouteTableUnambiguous();
    var route := RouteTable[k];
    var r := GuardFor(route.verb, route.path);
    assert r.Some?;
    var j :| 0 <= j < |RouteTable| && RouteTable[j] == Route(route.verb, route.path, r.value);
    assert j == k;
  }

  /** A teleconseiller reaches exactly the routes guarded by `requireAuth`. */
  lemma TeleconseillerReach(u: User)
    requires u.role == Teleconseiller
    ensures forall k :: 0 <= k < |RouteTable| ==>
              (ApplyGuard(RouteTable[k].guard, SignedIn(u)).Next? <==> RouteTable[k].guard == AuthGuard)
  {
  }

  // ---------------------------------------------------------------------
  // The core endpoints and their handlers
  // ---------------------------------------------------------------------

  datatype ApiRequest =
    | ListCallLogs
      /** The JSON body as the client sent it. */
    | PostCallLog(body: CallLogBody)
    | ListScenarios
      /** `parseInt(req.params.id)` (`None` for NaN) and `req.body.answer`. */
    | AnswerScenario(id: Option<int>, answer: AnswerValue)
    | ViewProgress

  datatype HandlerError = InvalidBody | InvalidId | Store(error: StoreError)

  datatype Reply =
    | Denied(status: int, message: string)
    | LogList(logs: seq<CallLog>)
    | CallLogCreated(log: CallLog)
    | ScenarioList(scenarios: seq<Scenario>)
    | Answered(verdict: Verdict)
    | ProgressView(progress: Progress)
      /** The handler threw; nothing after the throw ran. */
    | Thrown(error: HandlerError)

  function VerbOf(req: ApiRequest): Verb {
    match req
    case ListCallLogs => Get
    case PostCallLog(_) => Post
    case ListScenarios => Get
    case AnswerScenario(_, _) => Post
    case ViewProgress => Get
  }

  function PathOf(req: ApiRequest): Path {
    match req
    case ListCallLogs => Collection(CallLogs)
    case PostCallLog(_) => Collection(CallLogs)
    case ListScenarios => Collection(Scenarios)
    case AnswerScenario(_, _) => ScenarioAnswer
    case ViewProgress => Collection(UserProgress)
  }

  /** The route of every core request is registered, behind `requireAuth`. */
  lemma CoreRoutesNeedSession(req: ApiRequest)
    ensures GuardFor(VerbOf(req), PathOf(req)) == Some(AuthGuard)
  {
    var k := match req
      case ListCallLogs => 15
      case PostCallLog(_) => 16
      case ListScenarios => 17
      case AnswerScenario(_, _) => 18
      case ViewProgress => 19;
    GuardForTable(k);
  }

  /** The insert of a parsed call log, with the session user's id put in
      place of whatever `userId` the body held; a store error is thrown. */
  function FileCallLog(db: Db, user: User, ins: InsertCallLog): (r: (Reply, Db))
    ensures var step := CreateCallLog(db, ins.(userId := user.id));
            && r.1 == step.db
            && (r.0.CallLogCreated? <==> step.result.Success?)
            && (step.result.Success? ==> r.0 == CallLogCreated(step.result.value))
            && (step.result.Failure? ==> r.0 == Thrown(Store(step.result.error)))
    ensures r.0.CallLogCreated? ==> r.0.log.userId == user.id && r.0.log in r.1.callLogs
  {
    var step := CreateCallLog(db, ins.(userId := user.id));
    if step.result.Failure? then (Thrown(Store(step.result.error)), step.db)
    else (CallLogCreated(step.result.value), step.db)
  }

  /** The handler body, run only after the guard called `next()`. */
  function Handle(db: Db, user: User, req: ApiRequest): (r: (Reply, Db))
    // Reads answer from the database and write nothing.
    ensures req.ListCallLogs? ==> r == (LogList(GetCallLogsByUser(db, user.id)), db)
    ensures req.ListScenarios? ==> r == (ScenarioList(GetScenarios(db)), db)
    // Call logs are always filed under, and listed for, the session user.
    ensures r.0.CallLogCreated? ==> r.0.log.userId == user.id && r.0.log in r.1.callLogs
    ensures r.0.LogList? ==> forall c :: c in r.0.logs <==> c in db.callLogs && c.userId == user.id
    // A call-log body is parsed with the full insert schema first: it is
    // rejected without a write exactly when that parse throws, and is
    // otherwise inserted under the session user.
    ensures req.PostCallLog? ==>
              (r == (Thrown(InvalidBody), db) <==> ParseCallLog(req.body).None?)
    ensures req.PostCallLog? && ParseCallLog(req.body).Some? ==>
              var step := CreateCallLog(db, ParseCallLog(req.body).value.(userId := user.id));
              && r.1 == step.db
              && (r.0.CallLogCreated? <==> step.result.Success?)
              && (step.result.Success? ==> r.0.log == step.result.value)
              && (step.result.Failure? ==> r.0 == Thrown(Store(step.result.error)))
    // The answer is evaluated for the session user and the path id; a
    // path id that is not a number throws before any write.
    ensures req.AnswerScenario? && req.id.None? ==> r == (Thrown(InvalidId), db)
    ensures req.AnswerScenario? && req.id.Some? ==>
              var step := SubmitScenarioAnswer(db, user.id, req.id.value, req.answer);
              && r.1 == step.db
              && (r.0.Answered? <==> step.result.Success?)
              && (step.result.Success? ==> r.0.verdict == step.result.value)
              && (step.result.Failure? ==> r.0 == Thrown(Store(step.result.error)))
    ensures req.ViewProgress? ==>
              && r.0.ProgressView? && r.1 == GetUserProgress(db, user.id).db
              && FindProgress(r.1.progress, user.id) == Some(r.0.progress)
    // Requests that fail validation throw before any write.
    ensures r.0.Thrown? && (r.0.error.InvalidBody? || r.0.error.InvalidId?) ==> r.1 == db
    ensures !r.0.Denied?
  {
    match req
    case ListCallLogs =>
      (LogList(GetCallLogsByUser(db, user.id)), db)
    case PostCallLog(body) =>
      if ParseCallLog(body).None? then (Thrown(InvalidBody), db)
      else FileCallLog(db, user, ParseCallLog(body).value)
    case ListScenarios =>
      (ScenarioList(GetScenarios(db)), db)
    case AnswerScenario(id, answer) =>
      if id.None? then (Thrown(InvalidId), db)
      else
        var step := SubmitScenarioAnswer(db, user.id, id.value, answer);
        if step.result.Failure? then (Thrown(Store(step.result.error)), step.db)
        else (Answered(step.result.value), step.db)
    case ViewProgress =>
      var step := GetUserProgress(db, user.id);
      (ProgressView(step.result.value), step.db)
  }

  /** A request as Express serves it: the route's guard, then the handler. */
  function Serve(db: Db, auth: Auth, req: ApiRequest): (r: (Reply, Db))
    // The guard rejects exactly the requests without a session, with 401,
    // and then the handler does not run.
    ensures r.0.Denied? <==> auth.Anonymous?
    ensures auth.Anonymous? ==> r == (Denied(401, "Unauthorized"), db)
    ensures auth.SignedIn? ==> r == Handle(db, auth.user, req)
  {
    var guard := GuardFor(VerbOf(req), PathOf(req));
    CoreRoutesNeedSession(req);
    match ApplyGuard(guard.value, auth)
    case Reject(status, message) => (Denied(status, message), db)
    case Next => Handle(db, auth.user, req)
  }

  /** Serving any core request keeps the database invariants, given that a
      session always belongs to an existing user. */
  lemma ServeKeepsConsistent(db: Db, auth: Auth, req: ApiRequest)
    requires Ledger.Consistent(db)
    requires auth.SignedIn? ==> auth.user.id in db.users
    ensures Ledger.Consistent(Serve(db, auth, req).1)
  {
    if auth.SignedIn? {
      match req {
        case PostCallLog(body) =>
          if ParseCallLog(body).Some? {
            Ledger.CreateCallLogKeepsConsistent(db, ParseCallLog(body).value.(userId := auth.user.id));
          }
        case AnswerScenario(id, answer) =>
          if id.Some? {
            Ledger.SubmitKeepsConsistent(db, auth.user.id, id.value, answer);
          }
        case ViewProgress =>
          Ledger.GetUserProgressKeepsConsistent(db, auth.user.id);
        case _ =>
      }
    }
  }

  /** The call-log route as the dashboard's form needs it: the body parsed
      with `userId` omitted, then the session user's id put in. */
  function PostCallLogIntended(db: Db, user: User, body: CallLogBody): (r: (Reply, Db))
    ensures r.0 == Thrown(InvalidBody) <==> body.duration.None? || body.outcome.None?
    ensures r.0 == Thrown(InvalidBody) ==> r.1 == db
    ensures body.duration.Some? && body.outcome.Some? ==>
              var step := CreateCallLog(db, InsertCallLog(body.id, user.id, body.duration.value, body.outcome.value, body.notes));
              && r.1 == step.db
              && (r.0.CallLogCreated? <==> step.result.Success?)
              && (step.result.Success? ==> r.0.log == step.result.value)
    ensures r.0.CallLogCreated? ==> r.0.log.userId == user.id && r.0.log in r.1.callLogs
  {
    match ParseCallLogFor(user.id, body)
    case None => (Thrown(InvalidBody), db)
    case Some(ins) => FileCallLog(db, user, ins)
  }

  /** The corrected route differs from the route as written only on bodies
      without a `userId`: whenever the body has one, both give the same
      reply and database. */
  lemma IntendedAgreesWhenUserGiven(db: Db, user: User, body: CallLogBody)
    requires body.userId.Some?
    ensures PostCallLogIntended(db, user, body) == Handle(db, user, PostCallLog(body))
  {
    if body.duration.Some? && body.outcome.Some? {
      assert ParseCallLog(body).value.(userId := user.id) == ParseCallLogFor(user.id, body).value;
    }
  }

  /** The corrected route keeps the database invariants too. */
  lemma IntendedKeepsConsistent(db: Db, user: User, body: CallLogBody)
    requires Ledger.Consistent(db)
    ensures Ledger.Consistent(PostCallLogIntended(db, user, body).1)
  {
    if ParseCallLogFor(user.id, body).Some? {
      Ledger.CreateCallLogKeepsConsistent(db, ParseCallLogFor(user.id, body).value);
    }
  }
}

=== FILE: scenario_game.dfy ===
/** The client-side scenario card game: a session state, the events the
    component reacts to, and the single terminal action of a round. */
module ScenarioGame {
  import opened Wrappers
  import opened Schema

  /** The countdown a round starts with, in seconds. */
  const RoundSeconds := 60

  /** `currentScenario`, `timeLeft` and `isPlaying`. */
  datatype Session = Session(current: Option<Scenario>, timeLeft: int, isPlaying: bool)

  /** What a transition asks of the outside world: nothing, an answer
      request to the server, or the "Temps écoulé !" notice. */
  datatype Effect = Quiet | SubmitAnswer(scenarioId: int, answer: int) | TimeoutNotice

  function Initial(): (s: Session)
    ensures !s.isPlaying && s.timeLeft == 60 && s.current.None?
  {
    Session(None, RoundSeconds, false)
  }

  /** The countdown stays within a round, and a round has a scenario. */
  ghost predicate Inv(s: Session) {
    0 <= s.timeLeft <= RoundSeconds && (s.isPlaying ==> s.current.Some?)
  }

  /** `startNewGame`: `scenarios` is the query result (`None` while it
      loads), `pick` stands for `Math.floor(Math.random() * length)`. */
  function StartNewGame(s: Session, scenarios: Option<seq<Scenario>>, pick: nat): (r: Session)
    requires scenarios.Some? && |scenarios.value| > 0 ==> pick < |scenarios.value|
    ensures scenarios.None? || |scenarios.value| == 0 ==> r == s
    ensures scenarios.Some? && |scenarios.value| > 0 ==>
              r.isPlaying && r.timeLeft == 60 && r.current.Some? && r.current.value in scenarios.value
  {
    if scenarios.Some? && |scenarios.value| > 0 then
      Session(Some(scenarios.value[pick]), RoundSeconds, true)
    else s
  }

  /** One run of the timer effect: while playing with time left, a tick of
      the one-second interval; once the time is 0, the round stops and the
      notice is raised. */
  function TimerStep(s: Session): (r: (Session, Effect))
    ensures r.0.current == s.current
    ensures s.isPlaying && s.timeLeft > 0 ==> r == (s.(timeLeft := s.timeLeft - 1), Quiet)
    ensures s.timeLeft == 0 ==> r == (s.(isPlaying := false), TimeoutNotice)
    ensures !s.isPlaying && s.timeLeft != 0 ==> r == (s, Quiet)
    ensures r.1 != TimeoutNotice ==> r.0.isPlaying == s.isPlaying
    ensures !r.1.SubmitAnswer?
  {
    if s.isPlaying && s.timeLeft > 0 then (s.(timeLeft := s.timeLeft - 1), Quiet)
    else if s.timeLeft == 0 then (s.(isPlaying := false), TimeoutNotice)
    else (s, Quiet)
  }

  /** `handleAnswer(choiceIndex)`: submit for the current scenario and end
      the round, whatever the verdict will be. */
  function HandleAnswer(s: Session, choiceIndex: int): (r: (Session, Effect))
    ensures s.current.None? ==> r == (s, Quiet)
    ensures s.current.Some? ==>
              r.1 == SubmitAnswer(s.current.value.id, choiceIndex) && !r.0.isPlaying
              && r.0.current == s.current && r.0.timeLeft == s.timeLeft
  {
    if s.current.None? then (s, Quiet)
    else (s.(isPlaying := false), SubmitAnswer(s.current.value.id, choiceIndex))
  }

  /** The answer buttons on screen: one per choice, only while playing. */
  predicate Offered(s: Session, index: int) {
    s.isPlaying && s.current.Some? && 0 <= index < |s.current.value.choices|
  }

  datatype Event = Start(scenarios: Option<seq<Scenario>>, pick: nat) | Tick | Choose(index: int)

  /** Events the rendered component can produce: the start button is shown
      only outside a round, the answer buttons only during one. */
  predicate Enabled(s: Session, e: Event) {
    match e
    case Start(scenarios, pick) =>
      !s.isPlaying && (scenarios.Some? && |scenarios.value| > 0 ==> pick < |scenarios.value|)
    case Tick => true
    case Choose(i) => Offered(s, i)
  }

  function Step(s: Session, e: Event): (Session, Effect)
    requires Enabled(s, e)
  {
    match e
    case Start(scenarios, pick) => (StartNewGame(s, scenarios, pick), Quiet)
    case Tick => TimerStep(s)
    case Choose(i) => HandleAnswer(s, i)
  }

  /** The session the component mounts with satisfies the invariant. */
  lemma InitialInv()
    ensures Inv(Initial())
  {
  }

  /** Every enabled event keeps the invariant, so with `InitialInv` every
      reachable session satisfies it; in particular `timeLeft` never drops
      below 0. */
  lemma StepKeepsInv(s: Session, e: Event)
    requires Inv(s) && Enabled(s, e)
    ensures Inv(Step(s, e).0)
  {
  }

  /** A submitted index is always one of the scenario's choices. */
  lemma SubmittedIndexInRange(s: Session, e: Event)
    requires Enabled(s, e)
    requires Step(s, e).1.SubmitAnswer?
    ensures s.current.Some?
    ensures var eff := Step(s, e).1;
            eff.scenarioId == s.current.value.id && 0 <= eff.answer < |s.current.value.choices|
  {
  }

  /** A sequence of events each enabled in the state it meets. */
  predicate EnabledRun(s: Session, evs: seq<Event>)
    decreases |evs|
  {
    |evs| == 0 || (Enabled(s, evs[0]) && EnabledRun(Step(s, evs[0]).0, evs[1..]))
  }

  /** The final state and the effects of an enabled run. */
  function Run(s: Session, evs: seq<Event>): (Session, seq<Effect>)
    requires EnabledRun(s, evs)
    decreases |evs|
  {
    if |evs| == 0 then (s, [])
    else
      var (s1, e1) := Step(s, evs[0]);
      var (sn, effs) := Run(s1, evs[1..]);
      (sn, [e1] + effs)
  }

  function Submissions(effs: seq<Effect>): nat
    decreases |effs|
  {
    if |effs| == 0 then 0 else (if effs[0].SubmitAnswer? then 1 else 0) + Submissions(effs[1..])
  }

  predicate NoStart(evs: seq<Event>) {
    forall k :: 0 <= k < |evs| ==> !evs[k].Start?
  }

  /** Within one round, at most one answer is submitted, none once the
      round is over (by an answer or by the timeout), and after a
      submission the round is over. */
  lemma {:induction false} SingleTerminalAction(s: Session, evs: seq<Event>)
    requires EnabledRun(s, evs)
    requires NoStart(evs)
    ensures Submissions(Run(s, evs).1) <= (if s.isPlaying then 1 else 0)
    ensures !s.isPlaying ==> !Run(s, evs).0.isPlaying
    ensures Submissions(Run(s, evs).1) == 1 ==> !Run(s, evs).0.isPlaying
    decreases |evs|
  {
    if |evs| > 0 {
      var (s1, e1) := Step(s, evs[0]);
      assert NoStart(evs[1..]);
      SingleTerminalAction(s1, evs[1..]);
      if e1.SubmitAnswer? {
        assert !s1.isPlaying;
      }
    }
  }

  function Ticks(n: nat): (evs: seq<Event>)
    ensures |evs| == n && forall k :: 0 <= k < n ==> evs[k] == Tick
  {
    seq(n, _ => Tick)
  }

  lemma TicksEnabled(s: Session, n: nat)
    ensures EnabledRun(s, Ticks(n))
    decreases n
  {
    if n > 0 {
      assert Ticks(n)[1..] == Ticks(n - 1);
      TicksEnabled(TimerStep(s).0, n - 1);
    }
  }

  /** Left alone, a round counts down one second per tick and ends at 0
      with the timeout notice and no submission, after `timeLeft + 1` runs
      of the timer effect. */
  lemma {:induction false} CountdownEnds(s: Session)
    requires Inv(s) && s.isPlaying
    ensures EnabledRun(s, Ticks(s.timeLeft + 1))
    ensures var (final, effs) := Run(s, Ticks(s.timeLeft + 1));
            && !final.isPlaying && final.timeLeft == 0 && final.current == s.current
            && effs[|effs| - 1] == TimeoutNotice
            && Submissions(effs) == 0
    decreases s.timeLeft
  {
    TicksEnabled(s, s.timeLeft + 1);
    var evs := Ticks(s.timeLeft + 1);
    assert evs[1..] == Ticks(s.timeLeft);
    if s.timeLeft == 0 {
      assert evs == [Tick] && evs[1..] == [];
      assert Step(s, Tick) == (s.(isPlaying := false), TimeoutNotice);
      assert Run(s.(isPlaying := false), evs[1..]) == (s.(isPlaying := false), []);
      assert [TimeoutNotice] + [] == [TimeoutNotice];
      assert Run(s, evs) == (s.(isPlaying := false), [TimeoutNotice]);
    } else {
      var s1 := s.(timeLeft := s.timeLeft - 1);
      CountdownEnds(s1);
      assert Run(s, evs).1 == [Quiet] + Run(s1, Ticks(s1.timeLeft + 1)).1;
    }
  }
}

=== FILE: schema.dfy ===
/** The record shapes of the shared Drizzle schema: one datatype per table
    the core reads or writes, with the column defaults and text enums. */
module Schema {
  import opened Wrappers

  /** `users.role`: a text column restricted to two values. */
  datatype Role = Admin | Teleconseiller

  function RoleName(r: Role): string {
    match r
    case Admin => "admin"
    case Teleconseiller => "teleconseiller"
  }

  /** The role check of the zod insert schema that drizzle-zod derives
      from the enum column: only the two spellings are accepted. The
      column itself is plain `text`, so the check runs on insert, not on
      read. */
  function ParseRole(s: string): (r: Option<Role>)
    ensures r.Some? ==> RoleName(r.value) == s
    ensures (s == "admin" || s == "teleconseiller") <==> r.Some?
  {
    if s == "admin" then Some(Admin)
    else if s == "teleconseiller" then Some(Teleconseiller)
    else None
  }

  lemma RoleRoundTrip(r: Role)
    ensures ParseRole(RoleName(r)) == Some(r)
  {
  }

  /** `scenarios.difficulty`: a text column restricted to three values. */
  datatype Difficulty = Easy | Medium | Hard

  function DifficultyName(d: Difficulty): string {
    match d
    case Easy => "easy"
    case Medium => "medium"
    case Hard => "hard"
  }

  function ParseDifficulty(s: string): (r: Option<Difficulty>)
    ensures r.Some? ==> DifficultyName(r.value) == s
    ensures (s == "easy" || s == "medium" || s == "hard") <==> r.Some?
  {
    if s == "easy" then Some(Easy)
    else if s == "medium" then Some(Medium)
    else if s == "hard" then Some(Hard)
    else None
  }

  lemma DifficultyRoundTrip(d: Difficulty)
    ensures ParseDifficulty(DifficultyName(d)) == Some(d)
  {
  }

  const DefaultUserPoints := 0
  const DefaultUserLevel := 1
  const DefaultScenarioPoints := 10
  const DefaultProgressLevel := 1

  /** A row of `users`. `points` and `level` are nullable columns with
      defaults; the model fills them with those defaults, so they are plain
      integers here. */
  datatype User = User(id: int, username: string, password: string, role: Role, points: int, level: int)

  /** The columns `insertUserSchema` picks: username, password and role.
      The model's user inserts carry exactly these. */
  datatype InsertUser = InsertUser(username: string, password: string, role: Role)

  /** The row the database builds from an `InsertUser` and a fresh serial id. */
  function NewUser(id: int, ins: InsertUser): (u: User)
    ensures u.id == id && u.username == ins.username && u.password == ins.password && u.role == ins.role
    ensures u.points == 0 && u.level == 1
  {
    User(id, ins.username, ins.password, ins.role, DefaultUserPoints, DefaultUserLevel)
  }

  /** A row of `scenarios`. `choices` is a JSON array of strings and
      `correctAnswer` the index of the right one. */
  datatype Scenario = Scenario(
    id: int,
    title: string,
    description: string,
    choices: seq<string>,
    correctAnswer: int,
    points: int,
    category: string,
    difficulty: Difficulty)

  /** The columns of a scenario insert; `points` may be omitted. */
  datatype InsertScenario = InsertScenario(
    title: string,
    description: string,
    choices: seq<string>,
    correctAnswer: int,
    points: Option<int>,
    category: string,
    difficulty: Difficulty)

  function NewScenario(id: int, ins: InsertScenario): (s: Scenario)
    ensures ins.points.None? ==> s.points == 10
    ensures ins.points.Some? ==> s.points == ins.points.value
    ensures s.id == id && s.correctAnswer == ins.correctAnswer && s.choices == ins.choices
  {
    Scenario(id, ins.title, ins.description, ins.choices, ins.correctAnswer,
             ins.points.GetOr(DefaultScenarioPoints), ins.category, ins.difficulty)
  }

  /** A row of `user_progress` (serial id and timestamps left out). The JSON
      arrays are lists: appending never removes duplicates. */
  datatype Progress = Progress(
    userId: int,
    totalPoints: int,
    completedScenarios: seq<int>,
    completedQuizzes: seq<int>,
    badges: seq<int>,
    level: int)

  /** The row `user_progress` column defaults produce for a user. */
  function DefaultProgress(userId: int): (p: Progress)
    ensures p.userId == userId && p.totalPoints == 0 && p.level == 1
    ensures p.completedScenarios == [] && p.completedQuizzes == [] && p.badges == []
  {
    Progress(userId, 0, [], [], [], DefaultProgressLevel)
  }

  /** A row of `pages`; `slug` is unique. */
  datatype Page = Page(id: int, title: string, content: string, slug: string)

  /** The columns of a page insert. `insertPageSchema` keeps the serial
      `id` as an optional field: `None` lets the sequence choose it. */
  datatype InsertPage = InsertPage(id: Option<int>, title: string, content: string, slug: string)

  /** A row of `contacts`: only the name is required. */
  datatype Contact = Contact(id: int, name: string, phone: Option<string>, email: Option<string>, address: Option<string>)

  /** A row of `faq_entries`. */
  datatype FaqEntry = FaqEntry(id: int, question: string, answer: string, category: string)

  /** A row of `links`; the description is optional. */
  datatype Link = Link(id: int, title: string, url: string, description: Option<string>)

  /** A row of `call_logs` (the creation timestamp left out). */
  datatype CallLog = CallLog(id: int, userId: int, duration: int, outcome: string, notes: Option<string>)

  /** The columns of a call-log insert as the client sends them; as for
      pages, the serial `id` may be supplied or left to the sequence. */
  datatype InsertCallLog = InsertCallLog(id: Option<int>, userId: int, duration: int, outcome: string, notes: Option<string>)

  /** A call-log request body before validation: each column is present
      with a value of its column's type, or absent (`notes` also when
      `null`). Values of the wrong type are not modelled. */
  datatype CallLogBody = CallLogBody(
    id: Option<int>,
    userId: Option<int>,
    duration: Option<int>,
    outcome: Option<string>,
    notes: Option<string>)

  /** `insertCallLogSchema.parse`: the not-null columns without a default
      (`user_id`, `duration`, `outcome`) are required and the parse throws
      (`None`) without one of them; `id` and `notes` are optional. */
  function ParseCallLog(b: CallLogBody): (r: Option<InsertCallLog>)
    ensures r.Some? <==> b.userId.Some? && b.duration.Some? && b.outcome.Some?
    ensures r.Some? ==> BodyOf(r.value) == b
  {
    if b.userId.Some? && b.duration.Some? && b.outcome.Some? then
      Some(InsertCallLog(b.id, b.userId.value, b.duration.value, b.outcome.value, b.notes))
    else None
  }

  /** The JSON body that carries exactly the columns of an insert. */
  function BodyOf(ins: InsertCallLog): (b: CallLogBody)
    ensures b.userId.Some? && b.duration.Some? && b.outcome.Some?
  {
    CallLogBody(ins.id, Some(ins.userId), Some(ins.duration), Some(ins.outcome), ins.notes)
  }

  /** Parsing the body of an insert gives the insert back. */
  lemma ParseBodyOf(ins: InsertCallLog)
    ensures ParseCallLog(BodyOf(ins)) == Some(ins)
  {
  }

  /** `insertCallLogSchema.omit({ userId: true }).parse`, with the session
      user's id put in afterwards: only `duration` and `outcome` are
      required, and a `userId` in the body is stripped. */
  function ParseCallLogFor(userId: int, b: CallLogBody): (r: Option<InsertCallLog>)
    ensures r.Some? <==> b.duration.Some? && b.outcome.Some?
    ensures r.Some? ==> r.value.userId == userId && BodyOf(r.value) == b.(userId := Some(userId))
  {
    if b.duration.Some? && b.outcome.Some? then
      Some(InsertCallLog(b.id, userId, b.duration.value, b.outcome.value, b.notes))
    else None
  }
}

=== FILE: seqs.dfy ===
/** Sequence helpers behind `Array.prototype.filter` and
    `Array.from(new Set(...))`. */
module Seqs {

  /** `a` can be obtained from `b` by deleting elements, keeping order. */
  ghost predicate IsSubsequence<T>(a: seq<T>, b: seq<T>)
    decreases |b|
  {
    |a| == 0 ||
    (|b| > 0 && ((a[0] == b[0] && IsSubsequence(a[1..], b[1..])) || IsSubsequence(a, b[1..])))
  }

  /** The number of elements of `xs` satisfying `p`, repeats included. */
  function Count<T>(xs: seq<T>, p: T -> bool): nat
    decreases |xs|
  {
    if |xs| == 0 then 0 else (if p(xs[0]) then 1 else 0) + Count(xs[1..], p)
  }

  /** `xs.filter(p)`: exactly the satisfying elements, one output per
      satisfying position, in input order. */
  function Filter<T(!new)>(xs: seq<T>, p: T -> bool): (r: seq<T>)
    ensures |r| == Count(xs, p)
    ensures forall x :: x in r <==> x in xs && p(x)
    ensures IsSubsequence(r, xs)
    decreases |xs|
  {
    if |xs| == 0 then []
    else
      var rest := Filter(xs[1..], p);
      assert forall x :: x in xs <==> x == xs[0] || x in xs[1..];
      if p(xs[0]) then
        assert ([xs[0]] + rest)[1..] == rest;
        [xs[0]] + rest
      else rest
  }

  /** A predicate every element satisfies keeps the whole input. */
  lemma {:induction false} FilterKeepsAll<T(!new)>(xs: seq<T>, p: T -> bool)
    requires forall i :: 0 <= i < |xs| ==> p(xs[i])
    ensures Filter(xs, p) == xs
    decreases |xs|
  {
    if |xs| > 0 {
      FilterKeepsAll(xs[1..], p);
      assert [xs[0]] + xs[1..] == xs;
    }
  }

  /** No element occurs twice. */
  predicate Distinct<T(==)>(xs: seq<T>) {
    forall i, j :: 0 <= i < j < |xs| ==> xs[i] != xs[j]
  }

  /** `r` lists its elements in the order of their first occurrence in `xs`:
      wherever a later element of `r` occurs in `xs`, every earlier element
      of `r` has already occurred. */
  ghost predicate FirstOccurrenceOrder<T>(xs: seq<T>, r: seq<T>) {
    forall a, b, j :: 0 <= a < b < |r| && 0 <= j < |xs| && xs[j] == r[b] ==> r[a] in xs[..j]
  }

  /** `Array.from(new Set(xs))`: a JavaScript Set iterates in insertion
      order, so each value appears once, where it first occurred. */
  function Dedup<T(==,!new)>(xs: seq<T>): (r: seq<T>)
    ensures Distinct(r)
    ensures forall x :: x in r <==> x in xs
    ensures FirstOccurrenceOrder(xs, r)
    decreases |xs|
  {
    if |xs| == 0 then []
    else
      var init := xs[..|xs| - 1];
      var last := xs[|xs| - 1];
      var d := Dedup(init);
      assert xs == init + [last];
      assert forall x :: x in xs <==> x in init || x == last;
      if last in d then
        FirstOrderKeptByRepeat(init, last, d);
        d
      else
        FirstOrderKeptByNew(init, last, d);
        d + [last]
  }

  lemma FirstOrderKeptByRepeat<T>(init: seq<T>, last: T, d: seq<T>)
    requires FirstOccurrenceOrder(init, d)
    requires last in d
    requires forall x :: x in d <==> x in init
    ensures FirstOccurrenceOrder(init + [last], d)
  {
    var xs := init + [last];
    forall a, b, j | 0 <= a < b < |d| && 0 <= j < |xs| && xs[j] == d[b]
      ensures d[a] in xs[..j]
    {
      if j < |init| {
        assert xs[..j] == init[..j];
        assert init[j] == d[b];
      } else {
        assert xs[..j] == init;
      }
    }
  }

  lemma FirstOrderKeptByNew<T>(init: seq<T>, last: T, d: seq<T>)
    requires FirstOccurrenceOrder(init, d)
    requires last !in d
    requires forall x :: x in d <==> x in init
    ensures FirstOccurrenceOrder(init + [last], d + [last])
  {
    var xs := init + [last];
    var r := d + [last];
    forall a, b, j | 0 <= a < b < |r| && 0 <= j < |xs| && xs[j] == r[b]
      ensures r[a] in xs[..j]
    {
      if b == |d| {
        // `last` never occurred in `init`, so j is the final position.
        if j < |init| {
          assert false;
        }
        assert xs[..j] == init;
        assert r[a] == d[a];
      } else {
        assert r[a] == d[a] && r[b] == d[b];
        if j < |init| {
          assert xs[..j] == init[..j];
          assert init[j] == d[b];
        }
      }
    }
  }
}

=== FILE: storage.dfy ===
/** The server's storage layer as pure state transitions over an immutable
    database value. Each call is one sequential, atomic step. */
module Storage {
  import opened Wrappers
  import opened Schema
  import Seqs

  /** The tables the core touches. `users` is keyed by its primary key;
      the `*Serial` fields are the next values of the `serial` sequences;
      `progress` is a list of rows because `user_progress.user_id` carries
      no unique constraint. */
  datatype Db = Db(
    users: map<int, User>,
    userSerial: int,
    pages: seq<Page>,
    pageSerial: int,
    scenarios: seq<Scenario>,
    progress: seq<Progress>,
    callLogs: seq<CallLog>,
    callLogSerial: int)

  datatype StoreError =
    | ScenarioNotFound    // "Scenario not found"
    | UniqueViolation     // an insert that breaks a unique column

  /** What a storage call returns (or throws) and the database after it. */
  datatype Step<T> = Step(result: Result<T, StoreError>, db: Db)

  /** The submitted answer as it arrives in the request body: the handler
      passes `body.answer` through unchecked, and `===` only ever equals an
      integer `correctAnswer` when the value is that very number. Strings,
      fractions, `null` and a missing field are all `NotAnInteger`. */
  datatype AnswerValue = Num(n: int) | NotAnInteger

  datatype Verdict = Verdict(correct: bool, points: int)

  // ---------------------------------------------------------------------
  // Table invariants the storage operations keep
  // ---------------------------------------------------------------------

  ghost predicate UsersWellKeyed(db: Db) {
    && (forall id :: id in db.users ==> db.users[id].id == id && id < db.userSerial)
    && (forall a, b :: a in db.users && b in db.users && db.users[a].username == db.users[b].username ==> a == b)
  }

  /** Page ids (the primary key) and slugs are unique. A client may
      supply its own id, so ids are not bounded by the serial. */
  ghost predicate PagesWellKeyed(db: Db) {
    forall i, j :: 0 <= i < j < |db.pages| ==>
      db.pages[i].id != db.pages[j].id && db.pages[i].slug != db.pages[j].slug
  }

  ghost predicate ScenarioIdsDistinct(scenarios: seq<Scenario>) {
    forall i, j :: 0 <= i < j < |scenarios| ==> scenarios[i].id != scenarios[j].id
  }

  /** At most one progress row per user: not a database constraint, so
      the storage operations have to maintain it. */
  ghost predicate OneProgressPerUser(rows: seq<Progress>) {
    forall i, j :: 0 <= i < j < |rows| ==> rows[i].userId != rows[j].userId
  }

  ghost predicate CallLogsWellKeyed(db: Db) {
    forall i, j :: 0 <= i < j < |db.callLogs| ==> db.callLogs[i].id != db.callLogs[j].id
  }

  ghost predicate Valid(db: Db) {
    && UsersWellKeyed(db)
    && PagesWellKeyed(db)
    && ScenarioIdsDistinct(db.scenarios)
    && OneProgressPerUser(db.progress)
    && CallLogsWellKeyed(db)
  }

  // ---------------------------------------------------------------------
  // Lookups: `const [row] = await db.select()...where(...)`
  // ---------------------------------------------------------------------

  /** The first scenario with the given id, if any. */
  function FindScenario(scenarios: seq<Scenario>, id: int): (r: Option<Scenario>)
    ensures r.Some? ==> r.value in scenarios && r.value.id == id
    ensures r.None? <==> forall s :: s in scenarios ==> s.id != id
    decreases |scenarios|
  {
    if |scenarios| == 0 then None
    else if scenarios[0].id == id then Some(scenarios[0])
    else FindScenario(scenarios[1..], id)
  }

  /** Under distinct ids the lookup returns the one scenario with that id. */
  lemma {:induction false} FindScenarioUnique(scenarios: seq<Scenario>, k: nat)
    requires ScenarioIdsDistinct(scenarios)
    requires k < |scenarios|
    ensures FindScenario(scenarios, scenarios[k].id) == Some(scenarios[k])
    decreases k
  {
    if k > 0 {
      FindScenarioUnique(scenarios[1..], k - 1);
    }
  }

  /** The first progress row of the user, if any. */
  function FindProgress(rows: seq<Progress>, userId: int): (r: Option<Progress>)
    ensures r.Some? ==> r.value in rows && r.value.userId == userId
    ensures r.None? <==> forall p :: p in rows ==> p.userId != userId
    decreases |rows|
  {
    if |rows| == 0 then None
    else if rows[0].userId == userId then Some(rows[0])
    else FindProgress(rows[1..], userId)
  }

  /** Appending a row for another user does not change what a user finds. */
  lemma {:induction false} FindProgressAppend(rows: seq<Progress>, row: Progress, userId: int)
    ensures FindProgress(rows + [row], userId) ==
              if FindProgress(rows, userId).Some? then FindProgress(rows, userId)
              else if row.userId == userId then Some(row) else None
    decreases |rows|
  {
    if |rows| == 0 {
      assert rows + [row] == [row];
    } else {
      assert (rows + [row])[1..] == rows[1..] + [row];
      FindProgressAppend(rows[1..], row, userId);
    }
  }

  /** The points a user's progress shows: its total, or 0 before any row. */
  function TotalPointsOf(rows: seq<Progress>, userId: int): int {
    match FindProgress(rows, userId)
    case Some(p) => p.totalPoints
    case None => 0
  }

  // ---------------------------------------------------------------------
  // Writes used by the answer evaluator
  // ---------------------------------------------------------------------

  /** `UPDATE users SET points = points + n WHERE id = userId`: a missing
      user is no error, the update simply hits no row. */
  function AwardUserPoints(users: map<int, User>, userId: int, n: int): (r: map<int, User>)
    ensures r.Keys == users.Keys
    ensures forall id :: id in users && id != userId ==> r[id] == users[id]
    ensures userId in users ==> r[userId] == users[userId].(points := users[userId].points + n)
  {
    if userId in users then users[userId := users[userId].(points := users[userId].points + n)]
    else users
  }

  /** The progress row after one more correct answer. */
  function Credit(p: Progress, scenarioId: int, n: int): (q: Progress)
    ensures q.userId == p.userId && q.completedQuizzes == p.completedQuizzes
    ensures q.badges == p.badges && q.level == p.level
    ensures q.totalPoints - p.totalPoints == n
    ensures |q.completedScenarios| == |p.completedScenarios| + 1
    ensures q.completedScenarios[..|p.completedScenarios|] == p.completedScenarios
    ensures q.completedScenarios[|p.completedScenarios|] == scenarioId
  {
    p.(totalPoints := p.totalPoints + n, completedScenarios := p.completedScenarios + [scenarioId])
  }

  /** `UPDATE user_progress SET ... WHERE user_id = userId`: every row of
      the user is credited, every other row is left alone. */
  function CreditRows(rows: seq<Progress>, userId: int, scenarioId: int, n: int): (r: seq<Progress>)
    ensures |r| == |rows|
    ensures forall i :: 0 <= i < |rows| && rows[i].userId == userId ==> r[i] == Credit(rows[i], scenarioId, n)
    ensures forall i :: 0 <= i < |rows| && rows[i].userId != userId ==> r[i] == rows[i]
  {
    seq(|rows|, i requires 0 <= i < |rows| =>
      if rows[i].userId == userId then Credit(rows[i], scenarioId, n) else rows[i])
  }

  /** Crediting rows keeps their owners, so what any user finds changes
      only for the credited user, and only by one `Credit`. */
  lemma {:induction false} FindAfterCredit(rows: seq<Progress>, userId: int, scenarioId: int, n: int, other: int)
    ensures FindProgress(CreditRows(rows, userId, scenarioId, n), other) ==
              match FindProgress(rows, other)
              case Some(p) => if other == userId then Some(Credit(p, scenarioId, n)) else Some(p)
              case None => None
    decreases |rows|
  {
    if |rows| > 0 {
      assert CreditRows(rows, userId, scenarioId, n)[1..] == CreditRows(rows[1..], userId, scenarioId, n);
      FindAfterCredit(rows[1..], userId, scenarioId, n, other);
    }
  }

  /** The two writes of a correct answer: the user's counter, then the
      progress row, updated if the user has one and created otherwise. */
  function RecordCorrectAnswer(db: Db, userId: int, scenarioId: int, n: int): (r: Db)
    ensures r.scenarios == db.scenarios && r.pages == db.pages && r.callLogs == db.callLogs
    ensures r.userSerial == db.userSerial && r.pageSerial == db.pageSerial && r.callLogSerial == db.callLogSerial
  {
    var users := AwardUserPoints(db.users, userId, n);
    match FindProgress(db.progress, userId)
    case Some(_) =>
      db.(users := users, progress := CreditRows(db.progress, userId, scenarioId, n))
    case None =>
      db.(users := users, progress := db.progress + [Progress(userId, n, [scenarioId], [], [], 1)])
  }

  // ---------------------------------------------------------------------
  // The storage calls
  // ---------------------------------------------------------------------

  /** `getScenarios`: every scenario, no write. */
  function GetScenarios(db: Db): (r: seq<Scenario>)
    ensures forall s :: s in r <==> s in db.scenarios
    ensures |r| == |db.scenarios|
  {
    db.scenarios
  }

  /** `submitScenarioAnswer(userId, scenarioId, answer)`. */
  function SubmitScenarioAnswer(db: Db, userId: int, scenarioId: int, answer: AnswerValue): (r: Step<Verdict>)
    // An unknown scenario throws before any write.
    ensures FindScenario(db.scenarios, scenarioId).None? ==> r == Step(Failure(ScenarioNotFound), db)
    // A known scenario always yields a verdict, never an error.
    ensures FindScenario(db.scenarios, scenarioId).Some? ==>
      var s := FindScenario(db.scenarios, scenarioId).value;
      && r.result.Success?
      && (r.result.value.correct <==> answer.Num? && answer.n == s.correctAnswer)
      && r.result.value.points == (if r.result.value.correct then s.points else 0)
    // A wrong answer writes nothing.
    ensures r.result.Success? && !r.result.value.correct ==> r.db == db
    // Scenarios, pages and call logs are never written, and no id
    // sequence moves.
    ensures r.db.scenarios == db.scenarios && r.db.pages == db.pages && r.db.callLogs == db.callLogs
    ensures r.db.userSerial == db.userSerial && r.db.pageSerial == db.pageSerial
            && r.db.callLogSerial == db.callLogSerial
    ensures r.db.users.Keys == db.users.Keys
  {
    match FindScenario(db.scenarios, scenarioId)
    case None => Step(Failure(ScenarioNotFound), db)
    case Some(s) =>
      var correct := answer == Num(s.correctAnswer);
      var points := if correct then s.points else 0;
      var db' := if correct then RecordCorrectAnswer(db, userId, scenarioId, points) else db;
      Step(Success(Verdict(correct, points)), db')
  }

  /** A correct answer credits exactly one user: that user's `points` grow
      by the scenario's points, their progress row is extended (or created
      with the defaults and this one answer), and every other user's
      counter and progress stay as they were. */
  lemma CorrectAnswerEffect(db: Db, userId: int, scenarioId: int, answer: AnswerValue)
    requires FindScenario(db.scenarios, scenarioId).Some?
    requires answer == Num(FindScenario(db.scenarios, scenarioId).value.correctAnswer)
    ensures var s := FindScenario(db.scenarios, scenarioId).value;
            var r := SubmitScenarioAnswer(db, userId, scenarioId, answer);
            && r.result == Success(Verdict(true, s.points))
            && (userId in db.users ==>
                  r.db.users[userId].points == db.users[userId].points + s.points
                  && r.db.users[userId] == db.users[userId].(points := r.db.users[userId].points))
            && (forall id :: id in db.users && id != userId ==> r.db.users[id] == db.users[id])
            && (forall other :: other != userId ==>
                  FindProgress(r.db.progress, other) == FindProgress(db.progress, other))
            && FindProgress(r.db.progress, userId) ==
                 match FindProgress(db.progress, userId)
                 case Some(p) => Some(Credit(p, scenarioId, s.points))
                 case None => Some(Progress(userId, s.points, [scenarioId], [], [], 1))
  {
    var s := FindScenario(db.scenarios, scenarioId).value;
    var r := SubmitScenarioAnswer(db, userId, scenarioId, answer);
    match FindProgress(db.progress, userId) {
      case Some(p) =>
        forall other {
          FindAfterCredit(db.progress, userId, scenarioId, s.points, other);
        }
      case None =>
        var row := Progress(userId, s.points, [scenarioId], [], [], 1);
        forall other {
          FindProgressAppend(db.progress, row, other);
        }
    }
  }

  /** No idempotence guard: answering the same scenario correctly twice
      awards its points twice and lists it twice. */
  lemma RepeatedCorrectAnswerCountsTwice(db: Db, userId: int, scenarioId: int, answer: AnswerValue)
    requires FindScenario(db.scenarios, scenarioId).Some?
    requires answer == Num(FindScenario(db.scenarios, scenarioId).value.correctAnswer)
    ensures var s := FindScenario(db.scenarios, scenarioId).value;
            var r1 := SubmitScenarioAnswer(db, userId, scenarioId, answer);
            var r2 := SubmitScenarioAnswer(r1.db, userId, scenarioId, answer);
            && r2.result == Success(Verdict(true, s.points))
            && TotalPointsOf(r2.db.progress, userId) == TotalPointsOf(db.progress, userId) + 2 * s.points
            && FindProgress(r2.db.progress, userId).Some?
            && var done := FindProgress(r2.db.progress, userId).value.completedScenarios;
               |done| >= 2 && done[|done| - 2] == scenarioId && done[|done| - 1] == scenarioId
  {
    var s := FindScenario(db.scenarios, scenarioId).value;
    var r1 := SubmitScenarioAnswer(db, userId, scenarioId, answer);
    CorrectAnswerEffect(db, userId, scenarioId, answer);
    assert FindScenario(r1.db.scenarios, scenarioId) == Some(s);
    CorrectAnswerEffect(r1.db, userId, scenarioId, answer);
  }

  /** `getUserProgress(userId)`: the user's row, created with the column
      defaults when there is none. */
  function GetUserProgress(db: Db, userId: int): (r: Step<Progress>)
    ensures r.result.Success? && r.result.value.userId == userId
    ensures FindProgress(r.db.progress, userId) == Some(r.result.value)
    ensures FindProgress(db.progress, userId).Some? ==>
              r.db == db && r.result.value == FindProgress(db.progress, userId).value
    ensures FindProgress(db.progress, userId).None? ==>
              r.result.value == DefaultProgress(userId) && r.db == db.(progress := db.progress + [r.result.value])
  {
    match FindProgress(db.progress, userId)
    case Some(p) => Step(Success(p), db)
    case None =>
      var row := Progress(userId, 0, [], [], [], 1);
      FindProgressAppend(db.progress, row, userId);
      Step(Success(row), db.(progress := db.progress + [row]))
  }

  /** A second `getUserProgress` finds the row the first one returned and
      creates nothing. */
  lemma GetUserProgressIdempotent(db: Db, userId: int)
    ensures var r1 := GetUserProgress(db, userId);
            var r2 := GetUserProgress(r1.db, userId);
            r2.db == r1.db && r2.result == r1.result
  {
  }

  /** `createUser(insertUser)`: the insert fails on a taken username (or,
      never under `Valid`, a taken primary key); the serial advances either
      way, as a Postgres sequence does. */
  function CreateUser(db: Db, ins: InsertUser): (r: Step<User>)
    ensures r.db.userSerial == db.userSerial + 1
    ensures r.result.Failure? <==>
              db.userSerial in db.users || exists id :: id in db.users && db.users[id].username == ins.username
    ensures r.result.Failure? ==> r.result.error == UniqueViolation && r.db.users == db.users
    ensures r.result.Success? ==>
              var u := r.result.value;
              && u.points == 0 && u.level == 1
              && u.username == ins.username && u.password == ins.password && u.role == ins.role
              && u.id !in db.users
              && r.db.users == db.users[u.id := u]
    ensures r.db.progress == db.progress && r.db.scenarios == db.scenarios
  {
    var id := db.userSerial;
    var db' := db.(userSerial := id + 1);
    if id in db.users || exists other :: other in db.users && db.users[other].username == ins.username then
      Step(Failure(UniqueViolation), db')
    else
      var u := NewUser(id, ins);
      Step(Success(u), db'.(users := db.users[id := u]))
  }

  /** `createPage(insertPage)`: the id is the body's, or else the next
      value of the sequence, which then advances even if the insert fails;
      the primary key and the slug are unique. */
  function CreatePage(db: Db, ins: InsertPage): (r: Step<Page>)
    ensures r.db.pageSerial == if ins.id.None? then db.pageSerial + 1 else db.pageSerial
    ensures var id := if ins.id.Some? then ins.id.value else db.pageSerial;
            r.result.Failure? <==>
              exists i :: 0 <= i < |db.pages| && (db.pages[i].slug == ins.slug || db.pages[i].id == id)
    ensures r.result.Failure? ==> r.result.error == UniqueViolation && r.db.pages == db.pages
    ensures r.result.Success? ==>
              var page := r.result.value;
              && page.id == (if ins.id.Some? then ins.id.value else db.pageSerial)
              && page.title == ins.title && page.content == ins.content && page.slug == ins.slug
              && r.db.pages == db.pages + [page]
    ensures r.db.users == db.users && r.db.progress == db.progress && r.db.scenarios == db.scenarios
    ensures r.db.callLogs == db.callLogs
  {
    var id := ins.id.GetOr(db.pageSerial);
    var db' := if ins.id.None? then db.(pageSerial := db.pageSerial + 1) else db;
    if exists i :: 0 <= i < |db.pages| && (db.pages[i].slug == ins.slug || db.pages[i].id == id) then
      Step(Failure(UniqueViolation), db')
    else
      var page := Page(id, ins.title, ins.content, ins.slug);
      Step(Success(page), db'.(pages := db.pages + [page]))
  }

  /** `createCallLog(log)`: stored as given, under the body's id or else
      the next value of the sequence; a taken id is a unique violation. */
  function CreateCallLog(db: Db, log: InsertCallLog): (r: Step<CallLog>)
    ensures r.db.callLogSerial == if log.id.None? then db.callLogSerial + 1 else db.callLogSerial
    ensures var id := if log.id.Some? then log.id.value else db.callLogSerial;
            r.result.Failure? <==> exists i :: 0 <= i < |db.callLogs| && db.callLogs[i].id == id
    ensures r.result.Failure? ==> r.result.error == UniqueViolation && r.db.callLogs == db.callLogs
    ensures r.result.Success? ==>
              var c := r.result.value;
              && c.id == (if log.id.Some? then log.id.value else db.callLogSerial)
              && c.userId == log.userId && c.duration == log.duration
              && c.outcome == log.outcome && c.notes == log.notes
              && r.db.callLogs == db.callLogs + [c]
    ensures r.db.users == db.users && r.db.progress == db.progress && r.db.scenarios == db.scenarios
    ensures r.db.pages == db.pages
  {
    var id := log.id.GetOr(db.callLogSerial);
    var db' := if log.id.None? then db.(callLogSerial := db.callLogSerial + 1) else db;
    if exists i :: 0 <= i < |db.callLogs| && db.callLogs[i].id == id then
      Step(Failure(UniqueViolation), db')
    else
      var c := CallLog(id, log.userId, log.duration, log.outcome, log.notes);
      Step(Success(c), db'.(callLogs := db.callLogs + [c]))
  }

  /** A body may claim the id the sequence will hand out next: the
      insert succeeds without advancing the sequence, and the next insert
      that relies on the sequence then fails on the taken key. */
  lemma ClientIdBlocksSequence(db: Db, log: InsertCallLog, next: InsertCallLog)
    requires log.id == Some(db.callLogSerial) && next.id.None?
    requires CreateCallLog(db, log).result.Success?
    ensures var db1 := CreateCallLog(db, log).db;
            db1.callLogSerial == db.callLogSerial
            && CreateCallLog(db1, next).result == Failure(UniqueViolation)
  {
    var db1 := CreateCallLog(db, log).db;
    assert db1.callLogs[|db1.callLogs| - 1].id == db.callLogSerial;
  }

  /** `getCallLogsByUser(userId)`: that user's logs, in table order. */
  function GetCallLogsByUser(db: Db, userId: int): (r: seq<CallLog>)
    ensures forall c :: c in r <==> c in db.callLogs && c.userId == userId
    ensures Seqs.IsSubsequence(r, db.callLogs)
  {
    Seqs.Filter(db.callLogs, (c: CallLog) => c.userId == userId)
  }
}

=== FILE: text.dfy ===
/** String primitives the pages rely on: `toLowerCase`, `includes`,
    `join` and the line/field splitting that inverts `join`. */
module Text {

  /** Upper-case letters that `toLowerCase` maps one-to-one, 32 code points
      up: ASCII `A`-`Z` and Latin-1 `À`-`Þ` except the sign `×`. */
  predicate IsUpper(c: char) {
    ('A' <= c <= 'Z') || ('\U{C0}' <= c <= '\U{DE}' && c != '\U{D7}')
  }

  function LowerChar(c: char): (d: char)
    ensures !IsUpper(d)
    ensures IsUpper(c) ==> d as int == c as int + 32
    ensures !IsUpper(c) ==> d == c
  {
    if IsUpper(c) then (c as int + 32) as char else c
  }

  /** `s.toLowerCase()`, character by character. */
  function Lower(s: string): (r: string)
    ensures |r| == |s|
    ensures forall i :: 0 <= i < |s| ==> r[i] == LowerChar(s[i])
  {
    seq(|s|, i requires 0 <= i < |s| => LowerChar(s[i]))
  }

  /** Lowering twice is lowering once, so a lowered search term is
      compared with lowered text consistently. */
  lemma LowerIdempotent(s: string)
    ensures Lower(Lower(s)) == Lower(s)
  {
  }

  /** `needle` occurs in `hay` at offset `i`. */
  ghost predicate OccursAt(hay: string, needle: string, i: int) {
    0 <= i && i + |needle| <= |hay| && hay[i..i + |needle|] == needle
  }

  /** A slice of the tail is the slice of the whole, one position on. */
  lemma SliceOfTail(hay: string, i: int, n: nat)
    requires 1 <= i && i + n <= |hay|
    ensures hay[1..][i - 1..i - 1 + n] == hay[i..i + n]
  {
    var x, y := hay[1..][i - 1..i - 1 + n], hay[i..i + n];
    forall k | 0 <= k < n ensures x[k] == y[k] {
      assert x[k] == hay[i + k];
    }
    assert x == y;
  }

  /** `hay.includes(needle)`: a naive left-to-right scan. */
  function Includes(hay: string, needle: string): (r: bool)
    ensures r <==> exists i :: OccursAt(hay, needle, i)
    decreases |hay|
  {
    if needle <= hay then
      assert OccursAt(hay, needle, 0);
      true
    else if |hay| == 0 then
      false
    else
      var r := Includes(hay[1..], needle);
      if r then
        forall i | OccursAt(hay[1..], needle, i) ensures OccursAt(hay, needle, i + 1) {
          SliceOfTail(hay, i + 1, |needle|);
        }
        true
      else
        forall i | 1 <= i && i + |needle| <= |hay| ensures !OccursAt(hay, needle, i) {
          assert !OccursAt(hay[1..], needle, i - 1);
          SliceOfTail(hay, i, |needle|);
        }
        false
  }

  /** Every string includes the empty string, so an empty search matches. */
  lemma IncludesEmpty(hay: string)
    ensures Includes(hay, "")
  {
  }

  /** `parts.join(sep)` for a one-character separator. */
  function Join(parts: seq<string>, sep: char): (r: string)
    decreases |parts|
  {
    if |parts| == 0 then ""
    else if |parts| == 1 then parts[0]
    else parts[0] + [sep] + Join(parts[1..], sep)
  }

  /** `s.split(sep)`: the pieces between separators; always at least one. */
  function Split(s: string, sep: char): (r: seq<string>)
    ensures |r| >= 1
    decreases |s|
  {
    if |s| == 0 then [""]
    else
      var rest := Split(s[1..], sep);
      if s[0] == sep then [""] + rest
      else [[s[0]] + rest[0]] + rest[1..]
  }

  /** A piece without separators splits back to itself. */
  lemma {:induction false} SplitNoSep(a: string, sep: char)
    requires sep !in a
    ensures Split(a, sep) == [a]
    decreases |a|
  {
    if |a| > 0 {
      SplitNoSep(a[1..], sep);
      assert [a[0]] + a[1..] == a;
    }
  }

  /** One step of `split`: a leading separator opens a new piece, any
      other character joins the first piece. */
  lemma SplitCons(c: char, t: string, sep: char)
    ensures Split([c] + t, sep) ==
              if c == sep then [""] + Split(t, sep)
              else [[c] + Split(t, sep)[0]] + Split(t, sep)[1..]
  {
    assert ([c] + t)[0] == c && ([c] + t)[1..] == t;
  }

  /** The step of `SplitConcat` as sequence algebra: a leading character
      acts on the first piece, which stays the first after appending. */
  lemma ConsPieces(c: char, sep: char, front: seq<string>, back: seq<string>)
    requires |front| >= 1
    ensures var joined := front + back;
            (if c == sep then [""] + joined else [[c] + joined[0]] + joined[1..])
              == (if c == sep then [""] + front else [[c] + front[0]] + front[1..]) + back
  {
    var joined := front + back;
    assert joined[0] == front[0] && joined[1..] == front[1..] + back;
  }

  /** A separator ends the last piece of what precedes it: splitting
      `a`, a separator and `b` splits `a` and `b` apart. */
  lemma {:induction false} SplitConcat(a: string, sep: char, b: string)
    ensures Split(a + [sep] + b, sep) == Split(a, sep) + Split(b, sep)
    decreases |a|
  {
    if |a| == 0 {
      assert a + [sep] + b == [sep] + b;
      SplitCons(sep, b, sep);
    } else {
      var c, t := a[0], a[1..];
      assert a == [c] + t;
      assert a + [sep] + b == [c] + (t + [sep] + b);
      SplitConcat(t, sep, b);
      SplitCons(c, t, sep);
      SplitCons(c, t + [sep] + b, sep);
      ConsPieces(c, sep, Split(t, sep), Split(b, sep));
    }
  }

  /** Splitting at the first separator peels off the leading piece. */
  lemma SplitAtSep(a: string, sep: char, b: string)
    requires sep !in a
    ensures Split(a + [sep] + b, sep) == [a] + Split(b, sep)
  {
    SplitConcat(a, sep, b);
    SplitNoSep(a, sep);
  }

  /** Whatever the parts hold, splitting their join yields at least one
      piece per part, and the first piece is the first part's first piece. */
  lemma {:induction false} SplitJoinPrefix(parts: seq<string>, sep: char)
    requires |parts| >= 1
    ensures var r := Split(Join(parts, sep), sep);
            |r| >= |parts| && r[0] == Split(parts[0], sep)[0]
    decreases |parts|
  {
    if |parts| > 1 {
      SplitJoinPrefix(parts[1..], sep);
      SplitConcat(parts[0], sep, Join(parts[1..], sep));
    }
  }

  /** `split` inverts `join` when no part contains the separator. */
  lemma {:induction false} SplitJoin(parts: seq<string>, sep: char)
    requires |parts| >= 1
    requires forall k :: 0 <= k < |parts| ==> sep !in parts[k]
    ensures Split(Join(parts, sep), sep) == parts
    decreases |parts|
  {
    if |parts| == 1 {
      SplitNoSep(parts[0], sep);
    } else {
      SplitJoin(parts[1..], sep);
      SplitAtSep(parts[0], sep, Join(parts[1..], sep));
      assert [parts[0]] + parts[1..] == parts;
    }
  }
}

=== FILE: wrappers.dfy ===
/** Option and Result values standing in for TypeScript's `T | undefined`,
    nullable columns, and thrown errors. */
module Wrappers {

  datatype Option<+T> = None | Some(value: T) {

    /** The value, or `default` when absent (TypeScript's `x || default`
        on a nullable field). */
    function GetOr(default: T): T {
      match this
      case Some(v) => v
      case None => default
    }
  }

  datatype Result<+R, +E> = Success(value: R) | Failure(error: E)
}
